=== FILE: README.md ===
# Trade Pilot client logic in Dafny

Trade Pilot is a marketplace web application that connects homeowners with
tradespeople, and runs a blog whose content comes from a headless CMS. This project
models the decision logic of its client, and proves what that logic guarantees:

- **Blog page** (`Blog`). It normalises CMS entries into flat posts through
  `||` fallback chains, and builds a 220-character preview from the first content
  block. It picks the featured post, filters by category and search term, and
  renders the result-count text.
- **Data access** (`Api`). `fetchArticles` falls back to an empty listing.
  `fetchArticleBySlug` looks up by slug, then by the numeric id the slug starts
  with, and maps every failure to `null`. `addPurchase` appends a lead to a trade's
  purchased list in the `profiles` table.
- **Media URLs** (`Media`). `getMediaUrl` makes a CMS media path absolute.
- **Lead purchase view** (`LeadPurchase`). It shows the leads in the trade's
  postcode and the priority badge colour. It disables the accept button once a lead
  is purchased, looks up the trade's own bid, and submits the purchase.
- **Add-lead dialog** (`AddLeadsForm`). It holds the form state, applies
  field-by-field updates and the reset when the dialog opens or closes, checks
  completeness, and handles the submission outcome.
- **Login page** (`Login`). It chooses the initial tab, guards the submit, and
  redirects once per successful sign-in, by role.
- **Article body** (`BlockWrapper`). It picks the content blocks from either
  article shape and renders one renderer per block.

Shared pieces:

- `Json` models loosely typed JSON values as JavaScript reads them. It covers
  truthiness, `||`, optional chaining and indexing. `FirstTruthy` is a reference
  definition of a fallback chain, and the field chains are proved equal to it.
- `Text` models `toLowerCase`, `includes`, `slice`, the two `replace` calls and
  the decimal rendering of counts.
- `Profiles` is the profile record. `Seqs` defines order-preserving selection,
  which is the shape of `Array.prototype.filter`.
- `Wrappers` holds `Option` and `Result`.

Exceptions the JavaScript would throw are modelled as `Failure`/`None` results, or as
the value the surrounding `catch` returns: a listing body that parses to `null` makes
`fetchArticles` return the empty listing, and a slug lookup whose body is `null` makes
`fetchArticleBySlug` return `null`.
Examples are a `null` entry in the article list, a non-string title under the search
filter, a media relation without attributes, and `leadsData.filter` on missing data.
Network, database and authentication calls are not modelled. The model takes what
each of them returned as a parameter instead: a `Response`, the
`readFails`/`writeFails` flags, a `SignInResult`, or the current profile.
Component state that the source updates in place is modelled as classes whose
fields are reassigned: `ProfilesTable`, `LeadPurchaseView`, `LeadDialog` and
`LoginPage`.

Two properties of the purchase path are worth stating because a marketplace might be
expected to behave otherwise:

- **Purchase eligibility.** Whether a lead can be accepted depends only on whether
  its id is already in the trade's purchased list. No read or write touches the
  `credit` column. `LeadPurchase.ButtonIgnoresCredit` and `Api.WithPurchase` state
  this.
- **Duplicate purchases.** `addPurchase` appends the lead id without checking
  whether it is already there, so a purchased list can hold the same id twice.
  `Api.PurchaseKeepsDuplicates` states this.

## Model

| member | source | states |
|---|---|---|
| Json.FirstTruthyPicks | src/pages/Blog.tsx:75 | a fallback chain yields the first truthy candidate, with every earlier candidate falsy, or the fallback when all candidates are falsy |
| Text.Lower | src/pages/Blog.tsx:129 | `toLowerCase` keeps the length and lowercases each character (ASCII letters only) |
| Text.IncludesIff | src/pages/Blog.tsx:129 | the left-to-right `includes` search succeeds exactly when the term occurs at some position |
| Text.EmptyIsIncluded | src/pages/Blog.tsx:129 | an empty search term is found in every string |
| Text.Take | src/pages/Blog.tsx:63 | `slice(0, n)` is the prefix of exactly `n` characters, or the whole string when it is no longer than `n` |
| Text.RemoveMarkdown | src/pages/Blog.tsx:61 | removing `#>*_` and backtick leaves none of them and keeps every other character exactly as many times as it occurred, never lengthening the text |
| Text.RemoveMarkdownAppend | src/pages/Blog.tsx:61 | the removal distributes over concatenation, so the kept characters stay in their order |
| Text.IndexFrom | src/pages/Blog.tsx:62 | finds the first `>` at or after a position, or reports there is none |
| Text.StripTagsWithoutGt | src/pages/Blog.tsx:62 | the tag pattern `<[^>]+>` changes nothing in text that has no `>` |
| Text.StripTags | src/pages/Blog.tsx:62 | removing tags never lengthens the text, and text without `<` is unchanged |
| Text.StripTagsRemovesTag | src/pages/Blog.tsx:62 | a leading `<`, one or more non-`>` characters and a `>` are removed whole, and the rest of the text is processed as if it stood alone |
| Text.Decimal | src/pages/Blog.tsx:279 | the rendering of a count is a non-empty string of digits that starts with `0` exactly for zero, so it has no leading zeros |
| Text.DecimalRoundTrip | src/pages/Blog.tsx:279 | reading the rendered digits back gives the count |
| Blog.Attributes | src/pages/Blog.tsx:50 | the attributes are `item.attributes` when truthy, else `item` when truthy, else `{}`, so they are always truthy |
| Blog.Preview | src/pages/Blog.tsx:60-63 | the preview has at most 220 characters; `Blog.PreviewIsCutOfCleanBody` fixes its value |
| Blog.BlockPreview | src/pages/Blog.tsx:56-64 | a preview is taken only from a string `body` of a truthy first block and has at most 220 characters; `Blog.BlockExcerptIsClean` states it holds no markdown characters |
| Blog.ExcerptOf | src/pages/Blog.tsx:55-65 | the excerpt is either shown (truthy) or `''`; `Blog.ExcerptPrecedence` fixes the order of its sources |
| Blog.PreviewIsCutOfCleanBody | src/pages/Blog.tsx:60-63 | the block preview is the first 220 characters of the body without markdown characters, because the tag pass finds no `>` left |
| Blog.ExcerptPrecedence | src/pages/Blog.tsx:55-65 | the excerpt is `description`, else `excerpt`, else the first block's preview, else `''` |
| Blog.BlockExcerptIsClean | src/pages/Blog.tsx:56-64 | an excerpt taken from a block is at most 220 characters and holds no markdown characters |
| Blog.AuthorOf | src/pages/Blog.tsx:68 | the author always shows something (truthy); `Blog.DefaultedFieldChains` fixes the chain |
| Blog.ReadTimeOf | src/pages/Blog.tsx:75 | the read time always shows something (truthy); `Blog.DefaultedFieldChains` fixes the chain |
| Blog.CategoryOf | src/pages/Blog.tsx:78-83 | the category always shows something (truthy); `Blog.DefaultedFieldChains` fixes the chain |
| Blog.DefaultedFieldChains | src/pages/Blog.tsx:68-83 | author, read time and category are fallback chains in source order, ending in 'Trade Pilot', '5 min read' and 'General' |
| Blog.ImageCandidates | src/pages/Blog.tsx:87-100 | the seven image locations are read in source order |
| Blog.ImageOf | src/pages/Blog.tsx:86-101 | the image is either shown (truthy) or `''`; `Blog.ImagePrecedence` fixes the order of the seven locations |
| Blog.ImagePrecedence | src/pages/Blog.tsx:86-101 | the image is the first truthy of the seven locations, or `''` |
| Blog.ToPost | src/pages/Blog.tsx:49-113 | author, read time and category always show something; title and image are either shown or `''`; `featured` is the truthiness of the entry's `featured` field |
| Blog.DateOf | src/pages/Blog.tsx:71-73 | the date is the locale rendering of `publishedAt` when it is truthy, else `date` when truthy, else `''` |
| Blog.EmptyEntryDefaults | src/pages/Blog.tsx:49-113 | an entry with no fields becomes the post with every default and `featured` false |
| Blog.MapEntries | src/pages/Blog.tsx:49-114 | `map` with a callback that reads `.attributes` succeeds exactly when no entry is null, giving the callback's result for each entry, in order |
| Blog.PostsFromApi | src/pages/Blog.tsx:49 | no posts when `data.data` is falsy; a failure when it is a truthy non-array; otherwise the entry-by-entry mapping |
| Blog.FirstFeatured | src/pages/Blog.tsx:118 | `find(p => p.featured)`: the first featured post, with none featured before it |
| Blog.FeaturedPost | src/pages/Blog.tsx:118 | the first featured post, else the first post, else the fallback post |
| Blog.FailedFetchShowsFallback | src/lib/api.ts:95-110 | a failed listing fetch, or one whose body is `null`, gives no posts, and the hero shows the fallback post |
| Blog.KeepIsWanted | src/pages/Blog.tsx:126-131 | when the filter callback returns, it keeps the post exactly when the category matches and the lowercased term occurs in the lowercased title or excerpt |
| Blog.CategoryMatches | src/pages/Blog.tsx:127 | 'All Posts' matches every post, any other category only posts whose category is that string; `Blog.Keep` never keeps a post that fails it |
| Blog.Keep | src/pages/Blog.tsx:127-130 | the callback throws exactly for a non-string title, or for a non-matching title with a non-string excerpt (the title test short-circuits); a kept post always matches the category |
| Blog.FilterPosts | src/pages/Blog.tsx:126-131 | the visible posts are exactly the kept posts, each as many times as it occurs in the list, and none when the callback throws on some post |
| Blog.FilterPreservesOrder | src/pages/Blog.tsx:126 | the visible posts keep their original order |
| Blog.ClearedFiltersKeepAll | src/pages/Blog.tsx:309-312 | after "Clear Filters" (all categories, empty term) every post with a string title is visible |
| Blog.CountLabel | src/pages/Blog.tsx:277-279 | the count text is shown only for a non-zero count, starts with the count, and is plural exactly when the count is not 1 |
| Media.Absolute | src/lib/media.tsx:5 | a URL starting with 'http' is kept; any other becomes the CMS host, a `/` and the URL, so the result always starts with 'http' and ends with the input |
| Media.AbsoluteIdempotent | src/lib/media.tsx:5 | making an absolute URL absolute again changes nothing |
| Media.GetMediaUrl | src/lib/media.tsx:1-6 | null for a falsy media or `data`; a failure exactly when `data.attributes.url` is not a string; otherwise that URL made absolute by `Absolute` |
| Media.GetMediaUrlIdempotent | src/lib/media.tsx:1-6 | feeding a returned URL back through `getMediaUrl` returns it unchanged |
| Api.FetchArticles | src/lib/api.ts:95-110 | the parsed body of an ok response when it is not `null`; `{ data: [] }` for a rejected fetch, a non-ok status, an unparsable body or a `null` body (reading `Object.keys(null)` throws) |
| Api.TrimStart | src/lib/api.ts:124 | `parseInt` drops a prefix made only of white space and keeps the rest as a suffix |
| Api.DigitRun | src/lib/api.ts:124 | `parseInt` reads the longest run of leading digits |
| Api.ParseIntOfDecimal | src/lib/api.ts:124 | `parseInt` reads back the decimal rendering of every natural number |
| Api.ParseIntNaN | src/lib/api.ts:124-126 | a slug whose first non-space character is not a digit or sign is NaN |
| Api.ParseSigned | src/lib/api.ts:124 | a number is read exactly when the text starts with a digit, or a sign followed by a digit; it is the value of the leading digit run, negated exactly after a `-` |
| Api.ParseInt | src/lib/api.ts:124-126 | after the leading white space, a number is read exactly when a digit, or a sign followed by a digit, comes next; it is the value of that digit run, negated exactly after a `-` |
| Api.DigitRunOfPrefix | src/lib/api.ts:124 | the digit run of a digit string followed by a non-digit is that digit string |
| Api.ParseIntOfNumberedPrefix | src/lib/api.ts:124 | a slug made of a number's decimal digits and then text not starting with a digit (such as '12-kitchen-tips') parses to that number |
| Api.FetchArticleBySlug | src/lib/api.ts:113-143 | no request gives `null`, and at most two requests are made |
| Api.HasEntries | src/lib/api.ts:123 | `data.length` is a positive number; `Api.IdLookup` returns the first entry exactly for an ok response with entries |
| Api.SlugMissed | src/lib/api.ts:123 | the slug lookup parsed to a non-null body whose `data` is falsy or empty; `Api.IdFallbackExactly` makes the id lookup exactly then (for a numeric slug) |
| Api.NoSlugNoRequest | src/lib/api.ts:115-118 | an empty or missing slug gives `null` without any request |
| Api.SlugFirst | src/lib/api.ts:120 | a non-empty slug is first looked up by slug |
| Api.SlugHitSkipsIdLookup | src/lib/api.ts:123-138 | when the slug lookup has entries, its first entry is returned and no id lookup is made |
| Api.IdFallbackExactly | src/lib/api.ts:123-134 | the id lookup happens exactly when the slug lookup missed and the slug parses, asks for that integer, and its answer is the result |
| Api.NonNumericSlugGivesNull | src/lib/api.ts:124-136 | a missed slug lookup with a non-numeric slug gives `null` |
| Api.IdLookup | src/lib/api.ts:127-134 | `null` for a rejected, non-ok or unparsable id lookup; an ok response whose `data` has entries gives its first entry, and any non-null result is such an entry |
| Api.FailedSlugLookupGivesNull | src/lib/api.ts:120-122 | a rejected slug lookup, or one whose body is unparsable or `null`, gives `null` after that one request |
| Api.FailedIdLookupGivesNull | src/lib/api.ts:127-142 | a rejected, non-ok or unparsable id lookup gives `null` |
| Api.WithPurchase | src/lib/api.ts:171-175 | the written list is the old list (or `[]`) with the lead appended, and no other column changes (no credit deduction) |
| Api.PurchaseKeepsDuplicates | src/lib/api.ts:171-172 | buying a lead already in the list adds a second copy |
| Api.ProfilesTable.constructor | src/lib/api.ts:163-186 | a table whose rows are stored under their own ids |
| Api.ProfilesTable.AddPurchase | src/lib/api.ts:163-186 | a failed read or a missing row fails with nothing written; a failed update fails with nothing written; otherwise only that row changes, to its purchase |
| LeadPurchase.StatusColor | src/components/Trade-CRM/LeadPurchase.tsx:15-26 | every status gets one of four class lists, and the gray default exactly for statuses other than high, medium and low |
| LeadPurchase.StatusColorsDistinct | src/components/Trade-CRM/LeadPurchase.tsx:15-26 | high, medium and low get three different class lists |
| LeadPurchase.LeadsInPostcode | src/components/Trade-CRM/LeadPurchase.tsx:56 | exactly the leads whose location equals the profile's postcode, each as many times as it was fetched (loose equality: a null location matches a missing postcode) |
| LeadPurchase.LeadsInPostcodeKeepsOrder | src/components/Trade-CRM/LeadPurchase.tsx:56 | the visible leads keep the fetched order |
| LeadPurchase.AlreadyPurchased | src/components/Trade-CRM/LeadPurchase.tsx:88-89 | `profile?.leads?.includes(id)`, false without a profile or a list; `LeadPurchase.PurchaseButton` states the button from it |
| LeadPurchase.PurchaseButton | src/components/Trade-CRM/LeadPurchase.tsx:88-89 | the button is disabled exactly when it reads 'Accepted', exactly when the lead id is in the profile's purchased list; otherwise it reads 'Accept' |
| LeadPurchase.ButtonIgnoresCredit | src/components/Trade-CRM/LeadPurchase.tsx:88-89 | the credit balance plays no part in eligibility |
| LeadPurchase.PurchasedLeadIsAccepted | src/components/Trade-CRM/LeadPurchase.tsx:88-89 | once a profile holds the purchase, that lead's button is disabled and reads 'Accepted' |
| LeadPurchase.FirstBidBy | src/components/Trade-CRM/LeadPurchase.tsx:75 | `find`: the first bid by the given profile id, with none by it before |
| LeadPurchase.UserBid | src/components/Trade-CRM/LeadPurchase.tsx:75 | the trade's own bid is the first bid of the lead made by the profile's id; none means the lead has no such bid, or there is no profile |
| LeadPurchase.PurchaseRequestFor | src/components/Trade-CRM/LeadPurchase.tsx:59-61 | the request carries the lead id and the profile's id, with no id when there is no profile |
| LeadPurchase.LeadPurchaseView.constructor | src/components/Trade-CRM/LeadPurchase.tsx:31 | no visible leads and no toasts at first |
| LeadPurchase.LeadPurchaseView.LeadsChanged | src/components/Trade-CRM/LeadPurchase.tsx:54-57 | nothing changes while loading; missing data throws; otherwise the visible leads are the leads in the profile's postcode |
| LeadPurchase.LeadPurchaseView.HandlePurchase | src/components/Trade-CRM/LeadPurchase.tsx:43-61 | the purchase succeeds exactly when the profile row exists and neither read nor write fails; success appends the lead to that row and only toasts; failure writes nothing and shows the error toast; the lead query is not refetched |
| AddLeadsForm.BadgeName | src/components/Trade-CRM/AddLeadsForm.tsx:93 | the select only produces 'hot', 'warm' or 'cold' |
| AddLeadsForm.WithField | src/components/Trade-CRM/AddLeadsForm.tsx:89-90 | the named input takes the new text, and every other input and the badge are unchanged |
| AddLeadsForm.IsComplete | src/components/Trade-CRM/AddLeadsForm.tsx:103-111 | every input and the badge are non-empty; `AddLeadsForm.CompleteIffNoEmptyInput` relates it to the six inputs |
| AddLeadsForm.CompleteIffNoEmptyInput | src/components/Trade-CRM/AddLeadsForm.tsx:103-111 | with a badge from the select, the form is complete exactly when none of the six inputs is empty |
| AddLeadsForm.InitialFormNeedsEveryInput | src/components/Trade-CRM/AddLeadsForm.tsx:54-62 | the initial form is incomplete, and filling in the six inputs makes it complete exactly when none of the texts is empty |
| AddLeadsForm.LeadDialog.constructor | src/components/Trade-CRM/AddLeadsForm.tsx:65 | the dialog starts with the initial form |
| AddLeadsForm.LeadDialog.HandleDialog | src/components/Trade-CRM/AddLeadsForm.tsx:69-72 | opening or closing sets `open` and always resets the form, which disables the submit button |
| AddLeadsForm.LeadDialog.HandleChange | src/components/Trade-CRM/AddLeadsForm.tsx:86-91 | only the named input changes |
| AddLeadsForm.LeadDialog.HandleSelectChange | src/components/Trade-CRM/AddLeadsForm.tsx:93-95 | only the badge changes |
| AddLeadsForm.LeadDialog.HandleAddLead | src/components/Trade-CRM/AddLeadsForm.tsx:74-84 | success inserts the form, refetches the leads once, toasts, closes and resets; failure changes only the toasts |
| Login.InitialType | src/pages/Login.tsx:17 | the initial tab is 'trade' exactly when the `type` parameter is 'trade', else 'customer' |
| Login.Destination | src/pages/Login.tsx:26-30 | role 'trade' goes to '/trades-crm', every other role to '/find-tradespeople' |
| Login.SignUpLink | src/pages/Login.tsx:101-106 | the link is '/trades/join' exactly for the trade form, '/join' otherwise, with the matching caption |
| Login.LoginPage.constructor | src/pages/Login.tsx:12-18 | empty fields, not just logged in, tab from the query parameter |
| Login.LoginPage.SetCredentials | src/pages/Login.tsx:53-76 | typing changes only the email and password |
| Login.LoginPage.HandleSubmit | src/pages/Login.tsx:35-45 | `signIn` is called exactly when email and password are non-empty; `justLoggedIn` becomes true only on data without error, and is never cleared here |
| Login.LoginPage.RedirectEffect | src/pages/Login.tsx:24-33 | it navigates exactly when just logged in with a user and a profile, to the role's page, and then clears the flag |
| Login.SignInRedirectsOnce | src/pages/Login.tsx:24-45 | a successful sign-in followed by effect runs before and after the profile loads navigates exactly once, to the role's page |
| Login.FailedSignInStays | src/pages/Login.tsx:40-44 | a sign-in with an error or without data never navigates |
| BlockWrapper.BlocksOf | src/components/blocks/BLockWrapper.tsx:13-16 | the chosen blocks are always truthy, the `[]` default included; `BlockWrapper.BlocksPrecedence` fixes the order |
| BlockWrapper.BlocksPrecedence | src/components/blocks/BLockWrapper.tsx:13-16 | the blocks are `article.blocks` when truthy, else `article.attributes.blocks` when truthy, else `[]` |
| BlockWrapper.RenderFrom | src/components/blocks/BLockWrapper.tsx:22-24 | one renderer per remaining block, keyed by its index |
| BlockWrapper.RenderBlocks | src/components/blocks/BLockWrapper.tsx:13-24 | nothing is rendered unless the blocks are a non-empty array; otherwise one renderer per block, in order, keyed by index |
| BlockWrapper.RenderedKeysDistinct | src/components/blocks/BLockWrapper.tsx:22-24 | the keys are pairwise distinct, and the blocks read back from the renderers are the article's blocks |
| BlockWrapper.MissingArticleRendersNothing | src/components/blocks/BLockWrapper.tsx:12-18 | an undefined article, or one with no truthy blocks in either shape, renders nothing |
| BlockWrapper.NonArrayBlocksRenderNothing | src/components/blocks/BLockWrapper.tsx:13-18 | a truthy non-array `blocks` renders nothing, even when the nested shape holds blocks |

## Left out

- Network, database and authentication I/O is not modelled: `fetch`, the Supabase queries, `signIn`, `useAuth`. Their outcomes are parameters. The `leads` insert of the add-lead dialog is modelled as the `inserted` list.
- React Query caching and refetch timing are left out. A refetch is modelled as a counter, and toasts as the list of messages shown.
- The locale rendering of `publishedAt` (`toLocaleDateString('en-GB', ...)`) is left abstract as `Formatted(publishedAt)`, because date formatting is host-library code.
- Text.Lower: lowercases ASCII letters only, while JavaScript's `toLowerCase` also folds non-ASCII letters.
- Strings are sequences of Unicode scalar values. `slice(0, 220)` and `length` count UTF-16 code units in JavaScript, so the model differs for text outside the Basic Multilingual Plane.
- JSON numbers are integers. NaN, fractions and `Infinity` are left out. The core tests numbers for truthiness and compares lengths, and it builds one number itself: the id `parseInt` reads from a slug.
- Api.FetchArticleBySlug: the id query carries the exact integer read from the slug. JavaScript holds it as a double, so a digit run longer than 15 digits can be rounded, and from 1e21 upward it is printed in exponent form (`1e+21`). The model does not capture either.
- `null` and `undefined` are one `Null` value. The core's tests (truthiness, `?.`, `||`, `??`) do not distinguish them. The loose `==` on lead locations is modelled as `Option` equality.
- `Json.Length`: an object with its own `length` key is read as having no length. The model gives such an object `undefined`.
- Credit deduction and insufficient-credit errors are not modelled. The code has none.
- Concurrency is not modelled, such as two purchase clicks racing each other. Each operation is one atomic step.
- `console.log`/`console.error`, the page's SEO side effects, and `RichText` (src/lib/media.tsx:11-13, raw HTML injection) are left out as output only.
- The other rendering files are not part of this model: BlogPost, CustomerDashboard, TradeLeads, TradeJobs, Gallery, Testimonial, ImageBlock, CallToAction, GoogleAnalytics. They are markup over the modelled functions.
- A lead's priority is a plain string. Only `getStatusColor` reads it.

=== FILE: add_leads_form.dfy ===
/** The "Add New Lead" dialog (src/components/Trade-CRM/AddLeadsForm.tsx): the form
    state, its field-by-field updates, its completeness test and the submission. */
module AddLeadsForm {
  import opened Wrappers

  /** The form's contents: the lead without its id. */
  datatype LeadForm = LeadForm(
    name: string,
    phone: string,
    email: string,
    badge: string,
    service: string,
    location: string,
    value: string)

  /** The text inputs, by their `name` attribute. */
  datatype Field = Name | Service | Location | Value | Phone | Email

  /** The three options of the badge select. */
  datatype Badge = Hot | Warm | Cold

  function BadgeName(b: Badge): (r: string)
    ensures r in BadgeNames
  {
    match b
    case Hot => "hot"
    case Warm => "warm"
    case Cold => "cold"
  }

  const BadgeNames: set<string> := {"hot", "warm", "cold"}

  /** `initialForm`: every text empty, badge 'warm'. */
  const InitialForm: LeadForm := LeadForm("", "", "", "warm", "", "", "")

  /** The text of one input. */
  function FieldValue(f: LeadForm, field: Field): string
  {
    match field
    case Name => f.name
    case Service => f.service
    case Location => f.location
    case Value => f.value
    case Phone => f.phone
    case Email => f.email
  }

  /** `{ ...prev, [name]: value }`: the form with one input replaced. */
  function WithField(f: LeadForm, field: Field, v: string): (g: LeadForm)
    ensures FieldValue(g, field) == v
    ensures forall other :: other != field ==> FieldValue(g, other) == FieldValue(f, other)
    ensures g.badge == f.badge
  {
    match field
    case Name => f.(name := v)
    case Service => f.(service := v)
    case Location => f.(location := v)
    case Value => f.(value := v)
    case Phone => f.(phone := v)
    case Email => f.(email := v)
  }

  /** `isFormComplete`: every input, and the badge, is a non-empty string. */
  predicate IsComplete(f: LeadForm)
  {
    f.name != "" && f.service != "" && f.location != "" && f.value != "" &&
    f.phone != "" && f.email != "" && f.badge != ""
  }

  /** With a badge from the select, the form is complete exactly when no input is empty. */
  lemma CompleteIffNoEmptyInput(f: LeadForm)
    requires f.badge in BadgeNames
    ensures IsComplete(f) <==> forall field :: FieldValue(f, field) != ""
  {
    if forall field :: FieldValue(f, field) != "" {
      assert FieldValue(f, Name) != "" && FieldValue(f, Service) != "";
      assert FieldValue(f, Location) != "" && FieldValue(f, Value) != "";
      assert FieldValue(f, Phone) != "" && FieldValue(f, Email) != "";
    }
  }

  /** The initial form cannot be submitted, and filling in the six inputs one after
      the other makes it complete. */
  lemma InitialFormNeedsEveryInput(name: string, service: string, location: string,
                                   value: string, phone: string, email: string)
    ensures !IsComplete(InitialForm)
    ensures var f := WithField(WithField(WithField(WithField(WithField(WithField(
        InitialForm, Name, name), Service, service), Location, location), Value, value),
        Phone, phone), Email, email);
      IsComplete(f) <==> name != "" && service != "" && location != "" && value != "" &&
                         phone != "" && email != ""
  {
  }

  const CreatedToast: string := "Lead created successfully!"
  const ErrorToast: string := "Error! Try again"

  /** The dialog's state: the form, whether the dialog is open (a prop the parent
      owns), the toasts shown, the rows inserted into the `leads` table, and how many
      times the lead query was refetched. */
  class LeadDialog {
    var form: LeadForm
    var open: bool
    var toasts: seq<string>
    var inserted: seq<LeadForm>
    var leadRefetches: nat

    /** The badge always holds one of the select's options. */
    ghost predicate Valid()
      reads this
    {
      form.badge in BadgeNames
    }

    constructor (open: bool)
      ensures Valid()
      ensures form == InitialForm && this.open == open
      ensures toasts == [] && inserted == [] && leadRefetches == 0
    {
      form := InitialForm;
      this.open := open;
      toasts := [];
      inserted := [];
      leadRefetches := 0;
    }

    /** The submit button is disabled exactly when some input (or the badge) is
        empty. */
    predicate SubmitDisabled()
      reads this
    {
      !IsComplete(form)
    }

    /** `handleDialog(v)`: opening or closing the dialog always starts a fresh form. */
    method HandleDialog(v: bool)
      modifies this
      ensures Valid()
      ensures open == v && form == InitialForm && SubmitDisabled()
      ensures toasts == old(toasts) && inserted == old(inserted)
      ensures leadRefetches == old(leadRefetches)
    {
      open := v;
      form := InitialForm;
    }

    /** `handleChange`: the named input takes the typed text; nothing else changes. */
    method HandleChange(field: Field, v: string)
      requires Valid()
      modifies this
      ensures Valid()
      ensures FieldValue(form, field) == v
      ensures forall other :: other != field ==> FieldValue(form, other) == FieldValue(old(form), other)
      ensures form.badge == old(form.badge)
      ensures open == old(open) && toasts == old(toasts) && inserted == old(inserted)
      ensures leadRefetches == old(leadRefetches)
    {
      form := WithField(form, field, v);
    }

    /** `handleSelectChange`: only the badge changes. */
    method HandleSelectChange(b: Badge)
      modifies this
      ensures Valid()
      ensures form == old(form).(badge := BadgeName(b))
      ensures open == old(open) && toasts == old(toasts) && inserted == old(inserted)
      ensures leadRefetches == old(leadRefetches)
    {
      form := form.(badge := BadgeName(b));
    }

    /** `handleAddLead` and the mutation's callbacks: the form is inserted as a row of
        `leads`; on success the lead query is refetched, a toast confirms and the
        dialog closes with a fresh form; on failure only the error toast appears. */
    method HandleAddLead(insertFails: bool) returns (r: Result<()>)
      requires Valid()
      modifies this
      ensures Valid()
      ensures r.Ok? <==> !insertFails
      ensures r.Ok? ==> inserted == old(inserted) + [old(form)] && form == InitialForm &&
                        !open && leadRefetches == old(leadRefetches) + 1 &&
                        toasts == old(toasts) + [CreatedToast]
      ensures r.Failure? ==> inserted == old(inserted) && form == old(form) &&
                             open == old(open) && leadRefetches == old(leadRefetches) &&
                             toasts == old(toasts) + [ErrorToast]
    {
      if insertFails {
        toasts := toasts + [ErrorToast];
        return Failure("insert into leads failed");
      }
      inserted := inserted + [form];
      leadRefetches := leadRefetches + 1;
      toasts := toasts + [CreatedToast];
      HandleDialog(false);
      r := Ok(());
    }
  }
}

=== FILE: api.dfy ===
/** The decision logic of src/lib/api.ts: the article listing fallback, the
    slug-then-id article lookup, and the purchase write on the profiles table.
    Network and database calls are inputs: what each fetch or query returned. */
module Api {
  import opened Wrappers
  import opened Json
  import opened Text
  import opened Profiles

  /** What a `fetch` produced: a rejected promise, or a response with its `ok` flag and
      its body as `response.json()` would parse it (`None` when parsing rejects). */
  datatype Response = NetworkError | Response(ok: bool, body: Option<Value>)

  /** `{ data: [] }`, the listing returned when anything goes wrong. */
  const EmptyListing: Value := Obj(map["data" := Arr([])])

  /** `fetchArticles`: the parsed body of an ok response; `{ data: [] }` when the
      fetch rejects, the status is not ok, or the body is not JSON. A body that parses
      to `null` also gives `{ data: [] }`: logging `Object.keys(null)` throws, and the
      exception is caught. */
  function FetchArticles(resp: Response): (r: Value)
    ensures resp.NetworkError? || !resp.ok || resp.body.None? || resp.body == Some(Null) ==>
      r == EmptyListing
    ensures resp.Response? && resp.ok && resp.body.Some? && resp.body.value != Null ==>
      r == resp.body.value
    ensures r != Null
  {
    match resp
    case NetworkError => EmptyListing
    case Response(ok, body) =>
      if !ok then EmptyListing
      else match body
        case None => EmptyListing
        case Some(v) => if v == Null then EmptyListing else v
  }

  // ----- parseInt(s, 10) -----

  /** The characters `parseInt` skips before the number (ECMAScript white space and
      line terminators). */
  predicate IsJsSpace(c: char)
  {
    c == ' ' || c == '\t' || c == '\n' || c == '\r' || c == '\U{000B}' || c == '\U{000C}' ||
    c == '\U{00A0}' || c == '\U{1680}' || ('\U{2000}' <= c <= '\U{200A}') ||
    c == '\U{2028}' || c == '\U{2029}' || c == '\U{202F}' || c == '\U{205F}' ||
    c == '\U{3000}' || c == '\U{FEFF}'
  }

  predicate IsDigit(c: char)
  {
    '0' <= c <= '9'
  }

  /** `s` without its leading white space. */
  function TrimStart(s: string): (r: string)
    ensures |r| <= |s| && r == s[|s| - |r|..]
    ensures forall i :: 0 <= i < |s| - |r| ==> IsJsSpace(s[i])
    ensures |r| > 0 ==> !IsJsSpace(r[0])
    decreases |s|
  {
    if |s| > 0 && IsJsSpace(s[0]) then TrimStart(s[1..]) else s
  }

  /** The number of leading decimal digits of `s`. */
  function DigitRun(s: string): (k: nat)
    ensures k <= |s|
    ensures forall i :: 0 <= i < k ==> IsDigit(s[i])
    ensures k < |s| ==> !IsDigit(s[k])
    decreases |s|
  {
    if |s| > 0 && IsDigit(s[0]) then 1 + DigitRun(s[1..]) else 0
  }

  /** `t` starts with a digit, or with a sign followed by a digit. */
  predicate StartsNumber(t: string)
  {
    |t| > 0 && (IsDigit(t[0]) || (t[0] in {'-', '+'} && |t| > 1 && IsDigit(t[1])))
  }

  /** Reference definition: the value of the digit run after the optional sign. */
  function LeadingValue(t: string): nat
    requires StartsNumber(t)
  {
    var digits := if IsDigit(t[0]) then t else t[1..];
    DigitsValue(digits[..DigitRun(digits)])
  }

  /** The absolute value. */
  function Abs(n: int): nat
  {
    if n < 0 then -n else n
  }

  /** The number `parseInt` reads from text whose white space is already skipped: an
      optional sign, then the longest run of digits; `None` when there is no digit. */
  function ParseSigned(t: string): (r: Option<int>)
    ensures r.Some? <==> StartsNumber(t)
    ensures r.Some? ==> Abs(r.value) == LeadingValue(t)
    ensures r.Some? ==> r.value == if t[0] == '-' then -(LeadingValue(t) as int) else LeadingValue(t) as int
  {
    var signed := |t| > 0 && (t[0] == '-' || t[0] == '+');
    var rest := if signed then t[1..] else t;
    var k := DigitRun(rest);
    if k == 0 then None
    else
      var v: nat := DigitsValue(rest[..k]);
      var n: int := v;
      if signed && t[0] == '-' then Some(-n) else Some(n)
  }

  /** `parseInt(s, 10)`: white space skipped, an optional sign, then the longest run of
      digits; `None` (NaN) when there is no digit. */
  function ParseInt(s: string): (r: Option<int>)
    ensures r.Some? <==> StartsNumber(TrimStart(s))
    ensures r.Some? ==> Abs(r.value) == LeadingValue(TrimStart(s))
    ensures r.Some? ==>
      r.value == if TrimStart(s)[0] == '-' then -(LeadingValue(TrimStart(s)) as int)
                 else LeadingValue(TrimStart(s)) as int
  {
    ParseSigned(TrimStart(s))
  }

  /** A run of digits followed by a non-digit (or nothing) is a digit run of its own
      length. */
  lemma {:induction false} DigitRunOfPrefix(d: string, rest: string)
    requires forall i :: 0 <= i < |d| ==> IsDigit(d[i])
    requires |rest| == 0 || !IsDigit(rest[0])
    ensures DigitRun(d + rest) == |d|
    decreases |d|
  {
    if |d| > 0 {
      assert (d + rest)[0] == d[0];
      assert (d + rest)[1..] == d[1..] + rest;
      DigitRunOfPrefix(d[1..], rest);
    } else {
      assert d + rest == rest;
    }
  }

  /** A slug made of a number followed by anything that does not start with a digit
      parses to that number: the id the lookup falls back to. */
  lemma ParseIntOfNumberedPrefix(n: nat, rest: string)
    requires |rest| == 0 || !IsDigit(rest[0])
    ensures ParseInt(Decimal(n) + rest) == Some(n)
  {
    var d := Decimal(n);
    var s := d + rest;
    assert s[0] == d[0];
    assert IsDigit(s[0]) && !IsJsSpace(s[0]);
    assert TrimStart(s) == s;
    assert !(s[0] == '-' || s[0] == '+');
    DigitRunOfPrefix(d, rest);
    assert s[..|d|] == d;
    DecimalRoundTrip(n);
    assert ParseSigned(s) == Some(n);
  }

  /** `parseInt` reads back the decimal rendering of any natural number. */
  lemma ParseIntOfDecimal(n: nat)
    ensures ParseInt(Decimal(n)) == Some(n)
  {
    ParseIntOfNumberedPrefix(n, "");
    assert Decimal(n) + "" == Decimal(n);
  }

  /** A string whose first non-space character is neither a sign nor a digit is NaN. */
  lemma ParseIntNaN(s: string)
    requires |TrimStart(s)| == 0 || !(IsDigit(TrimStart(s)[0]) || TrimStart(s)[0] in {'-', '+'})
    ensures ParseInt(s).None?
  {
  }

  // ----- fetchArticleBySlug -----

  /** A request made to the content service. */
  datatype Query = BySlug(slug: string) | ById(id: int)

  /** The outcome of a lookup: the article (`Null` for the source's `null`) and the
      requests issued, in order. */
  datatype Lookup = Lookup(article: Value, queries: seq<Query>)

  /** `result.data.length > 0`. */
  predicate HasEntries(data: Value)
  {
    Length(data).Num? && Length(data).n > 0
  }

  /** The lookup by numeric id, reached when the slug lookup found nothing; `null`
      for a rejected fetch, a non-ok status, an unparsable or `null` body, or no data. */
  function IdLookup(resp: Response): (r: Value)
    ensures resp.NetworkError? || !resp.ok || resp.body.None? ==> r == Null
    ensures r != Null ==>
      resp.Response? && resp.ok && resp.body.Some? &&
      HasEntries(Get(resp.body.value, "data")) && r == First(Get(resp.body.value, "data"))
    ensures resp.Response? && resp.ok && resp.body.Some? && HasEntries(Get(resp.body.value, "data")) ==>
      r == First(Get(resp.body.value, "data"))
  {
    match resp
    case NetworkError => Null
    case Response(ok, body) =>
      if !ok || body.None? || body.value == Null then Null
      else
        var data := Get(body.value, "data");
        if Truthy(data) && HasEntries(data) then First(data) else Null
  }

  /** `fetchArticleBySlug(slug)` given what the slug lookup (`bySlug`) and the id lookup
      (`byId`) would return. The slug lookup's status is not checked; every exception
      (rejected fetch, unparsable body, reading `data` of a `null` body) gives `null`. */
  function FetchArticleBySlug(slug: Option<string>, bySlug: Response, byId: Response): (r: Lookup)
    ensures r.queries == [] ==> r.article == Null
    ensures |r.queries| <= 2
  {
    if slug.None? || slug.value == "" then Lookup(Null, [])
    else
      var s := slug.value;
      match bySlug
      case NetworkError => Lookup(Null, [BySlug(s)])
      case Response(_, body) =>
        if body.None? || body.value == Null then Lookup(Null, [BySlug(s)])
        else
          var data := Get(body.value, "data");
          if !Truthy(data) || Length(data) == Num(0) then
            match ParseInt(s)
            case None => Lookup(Null, [BySlug(s)])
            case Some(id) => Lookup(IdLookup(byId), [BySlug(s), ById(id)])
          else Lookup(First(data), [BySlug(s)])
  }

  /** The slug lookup found no entries (its `data` is missing, falsy or empty). */
  predicate SlugMissed(bySlug: Response)
  {
    bySlug.Response? && bySlug.body.Some? && bySlug.body.value != Null &&
    (!Truthy(Get(bySlug.body.value, "data")) || Length(Get(bySlug.body.value, "data")) == Num(0))
  }

  /** An empty or missing slug returns `null` without any request. */
  lemma NoSlugNoRequest(slug: Option<string>, bySlug: Response, byId: Response)
    requires slug.None? || slug == Some("")
    ensures FetchArticleBySlug(slug, bySlug, byId) == Lookup(Null, [])
  {
  }

  /** A non-empty slug is always looked up by slug first. */
  lemma SlugFirst(s: string, bySlug: Response, byId: Response)
    requires s != ""
    ensures var r := FetchArticleBySlug(Some(s), bySlug, byId);
      |r.queries| >= 1 && r.queries[0] == BySlug(s)
  {
  }

  /** When the slug lookup has entries, its first entry is returned and the id
      fallback is not attempted. */
  lemma SlugHitSkipsIdLookup(s: string, body: Value, ok: bool, byId: Response)
    requires s != "" && body != Null
    requires Truthy(Get(body, "data")) && Length(Get(body, "data")) != Num(0)
    ensures FetchArticleBySlug(Some(s), Response(ok, Some(body)), byId) ==
            Lookup(First(Get(body, "data")), [BySlug(s)])
  {
  }

  /** The id lookup happens exactly when the slug lookup missed and the slug parses as
      an integer; it asks for that integer, and its answer is the result. */
  lemma IdFallbackExactly(s: string, bySlug: Response, byId: Response)
    requires s != ""
    ensures var r := FetchArticleBySlug(Some(s), bySlug, byId);
      (|r.queries| == 2 <==> SlugMissed(bySlug) && ParseInt(s).Some?) &&
      (|r.queries| == 2 ==> r.queries[1] == ById(ParseInt(s).value) && r.article == IdLookup(byId))
  {
    var r := FetchArticleBySlug(Some(s), bySlug, byId);
    var id := ParseInt(s);
    if SlugMissed(bySlug) && id.Some? {
      assert r == Lookup(IdLookup(byId), [BySlug(s), ById(id.value)]);
    } else {
      assert |r.queries| == 1;
    }
  }

  /** A failed slug lookup (rejected fetch, a body that does not parse, or a `null`
      body, whose `data` cannot be read) gives `null` after that one request. */
  lemma FailedSlugLookupGivesNull(s: string, bySlug: Response, byId: Response)
    requires s != ""
    requires bySlug.NetworkError? || bySlug.body.None? || bySlug.body == Some(Null)
    ensures FetchArticleBySlug(Some(s), bySlug, byId) == Lookup(Null, [BySlug(s)])
  {
  }

  /** A missed slug lookup with a non-numeric slug gives `null`. */
  lemma NonNumericSlugGivesNull(s: string, bySlug: Response, byId: Response)
    requires s != "" && SlugMissed(bySlug) && ParseInt(s).None?
    ensures FetchArticleBySlug(Some(s), bySlug, byId) == Lookup(Null, [BySlug(s)])
  {
  }

  /** A failing id lookup (rejected, not ok, or not JSON) gives `null`. */
  lemma FailedIdLookupGivesNull(s: string, bySlug: Response, byId: Response)
    requires s != "" && SlugMissed(bySlug) && ParseInt(s).Some?
    requires byId.NetworkError? || !byId.ok || byId.body.None?
    ensures FetchArticleBySlug(Some(s), bySlug, byId).article == Null
  {
  }

  // ----- addPurchase -----

  /** The error raised when the profile row cannot be read (query error, or no single
      row with that id). */
  const ReadError: string := "profile read failed"

  /** The error raised when the update of the profile row fails. */
  const WriteError: string := "profile update failed"

  /** The profile after `addPurchase` wrote it: `leads` becomes the old list (or `[]`)
      with `lead` appended; no other column changes. */
  function WithPurchase(p: Profile, lead: int): (q: Profile)
    ensures q.leads.Some?
    ensures |PurchasedLeads(q)| == |PurchasedLeads(p)| + 1
    ensures PurchasedLeads(q)[..|PurchasedLeads(p)|] == PurchasedLeads(p)
    ensures PurchasedLeads(q)[|PurchasedLeads(p)|] == lead
    ensures q.id == p.id && q.role == p.role && q.postcode == p.postcode && q.credit == p.credit
  {
    p.(leads := Some(PurchasedLeads(p) + [lead]))
  }

  /** No de-duplication: buying a lead already in the list adds a second copy. */
  lemma {:induction false} PurchaseKeepsDuplicates(p: Profile, lead: int)
    ensures multiset(PurchasedLeads(WithPurchase(p, lead)))[lead] ==
            multiset(PurchasedLeads(p))[lead] + 1
    ensures lead in PurchasedLeads(p) ==>
            |PurchasedLeads(WithPurchase(p, lead))| == |PurchasedLeads(p)| + 1
  {
    assert PurchasedLeads(WithPurchase(p, lead)) == PurchasedLeads(p) + [lead];
  }

  /** The `profiles` table, keyed by profile id. */
  class ProfilesTable {
    var rows: map<string, Profile>

    /** Every row is stored under its own id. */
    ghost predicate Valid()
      reads this
    {
      forall id :: id in rows ==> rows[id].id == id
    }

    constructor (initial: map<string, Profile>)
      requires forall id :: id in initial ==> initial[id].id == id
      ensures Valid() && rows == initial
    {
      rows := initial;
    }

    /** `addPurchase({lead, userID})`: reads the row `userID` (failing when the read
        errors or there is no such row), appends `lead` to its `leads`, and writes the
        list back (failing, with nothing written, when the update errors). */
    method AddPurchase(lead: int, userID: Option<string>, readFails: bool, writeFails: bool)
      returns (r: Result<()>)
      requires Valid()
      modifies this
      ensures Valid()
      ensures r == (if readFails || userID.None? || userID.value !in old(rows) then Failure(ReadError)
                    else if writeFails then Failure(WriteError)
                    else Ok(()))
      ensures r.Ok? ==> rows == old(rows)[userID.value := WithPurchase(old(rows)[userID.value], lead)]
      ensures r.Failure? ==> rows == old(rows)
    {
      if readFails || userID.None? || userID.value !in rows {
        return Failure(ReadError);
      }
      var id := userID.value;
      var profile := rows[id];
      var currentLeads := PurchasedLeads(profile);
      var updatedLeads := currentLeads + [lead];
      if writeFails {
        return Failure(WriteError);
      }
      rows := rows[id := profile.(leads := Some(updatedLeads))];
      r := Ok(());
    }
  }
}

=== FILE: block_wrapper.dfy ===
/** The article body (src/components/blocks/BLockWrapper.tsx): the dynamic-zone blocks
    of an article, in either the flattened or the nested CMS shape, each handed to a
    renderer keyed by its position. */
module BlockWrapper {
  import opened Wrappers
  import opened Json

  /** `article?.blocks || article?.attributes?.blocks || []`. */
  function BlocksOf(article: Value): (r: Value)
    ensures Truthy(r)
  {
    Or(Or(Get(article, "blocks"), Get(Get(article, "attributes"), "blocks")), Arr([]))
  }

  /** The flattened shape wins when its `blocks` is truthy; then the nested one; then
      the empty list. */
  lemma BlocksPrecedence(article: Value)
    ensures BlocksOf(article) ==
      FirstTruthy([Get(article, "blocks"), Path(article, ["attributes", "blocks"])], Arr([]))
    ensures Truthy(Get(article, "blocks")) ==> BlocksOf(article) == Get(article, "blocks")
    ensures !Truthy(Get(article, "blocks")) && Truthy(Path(article, ["attributes", "blocks"])) ==>
      BlocksOf(article) == Path(article, ["attributes", "blocks"])
  {
    var flat := Get(article, "blocks");
    var nested := Path(article, ["attributes", "blocks"]);
    assert nested == Get(Get(article, "attributes"), "blocks") by {
      assert ["attributes", "blocks"][1..] == ["blocks"];
      assert ["blocks"][1..] == [];
    }
    FirstTruthyCons(flat, [nested], Arr([]));
    FirstTruthyCons(nested, [], Arr([]));
    assert [flat, nested] == [flat] + [nested];
    assert [nested] == [nested] + [];
  }

  /** One `<BlockRenderer key={index} block={block} />`. */
  datatype Rendered = Rendered(key: nat, block: Value)

  /** The renderers for `blocks[from..]`, keyed by their index in `blocks`. */
  function RenderFrom(blocks: seq<Value>, from: nat): (r: seq<Rendered>)
    requires from <= |blocks|
    ensures |r| == |blocks| - from
    ensures forall i :: 0 <= i < |r| ==> r[i] == Rendered(from + i, blocks[from + i])
    decreases |blocks| - from
  {
    if from == |blocks| then []
    else [Rendered(from, blocks[from])] + RenderFrom(blocks, from + 1)
  }

  /** What the wrapper renders: `null` (`None`) unless the chosen blocks are a
      non-empty array; otherwise one renderer per block, in order, keyed by index. */
  function RenderBlocks(article: Value): (r: Option<seq<Rendered>>)
    ensures r.None? <==> !(BlocksOf(article).Arr? && |BlocksOf(article).items| > 0)
    ensures r.Some? ==> |r.value| == |BlocksOf(article).items|
    ensures r.Some? ==> forall i :: 0 <= i < |r.value| ==>
      r.value[i].key == i && r.value[i].block == BlocksOf(article).items[i]
  {
    var blocks := BlocksOf(article);
    if !blocks.Arr? || |blocks.items| == 0 then None
    else Some(RenderFrom(blocks.items, 0))
  }

  /** The keys of the rendered list are pairwise distinct, and the blocks can be read
      back from it unchanged. */
  lemma RenderedKeysDistinct(article: Value)
    requires RenderBlocks(article).Some?
    ensures var r := RenderBlocks(article).value;
      (forall i, j :: 0 <= i < j < |r| ==> r[i].key != r[j].key) &&
      Arr(BlocksIn(r)) == BlocksOf(article)
  {
    var r := RenderBlocks(article).value;
    assert BlocksIn(r) == BlocksOf(article).items;
  }

  /** The blocks carried by a list of renderers, in order. */
  function BlocksIn(r: seq<Rendered>): seq<Value>
  {
    seq(|r|, i requires 0 <= i < |r| => r[i].block)
  }

  /** A missing article renders nothing, and so does one whose blocks are all
      missing or falsy in both shapes. */
  lemma MissingArticleRendersNothing(article: Value)
    requires !Truthy(Get(article, "blocks")) && !Truthy(Get(Get(article, "attributes"), "blocks"))
    ensures RenderBlocks(article).None?
    ensures RenderBlocks(Null).None?
  {
  }

  /** A truthy `blocks` that is not an array (a string, an object) also renders
      nothing, even when the nested shape holds blocks. */
  lemma NonArrayBlocksRenderNothing(blocks: Value, nested: seq<Value>)
    requires Truthy(blocks) && !blocks.Arr?
    ensures RenderBlocks(Obj(map["blocks" := blocks,
                                 "attributes" := Obj(map["blocks" := Arr(nested)])])).None?
  {
  }
}

=== FILE: blog.dfy ===
/** The blog page's data logic (src/pages/Blog.tsx): normalising CMS articles into
    flat posts, choosing the featured post, filtering by category and search term,
    and the result-count label. */
module Blog {
  import opened Wrappers
  import opened Json
  import opened Text
  import opened Seqs
  import Api

  /** The date shown for a post: the locale rendering of `publishedAt` (left abstract),
      or the raw `date` field. */
  datatype PostDate = Formatted(publishedAt: Value) | Plain(date: Value)

  /** A flat post record. Fields other than `featured` keep whatever JSON value the
      fallback chains selected, as the source does. */
  datatype Post = Post(
    id: Value,
    title: Value,
    excerpt: Value,
    author: Value,
    date: PostDate,
    readTime: Value,
    category: Value,
    image: Value,
    featured: bool)

  /** The hero post shown when the CMS gives no posts. */
  const FallbackFeaturedPost: Post := Post(
    Num(1),
    Str("The Complete Guide to Kitchen Renovation: From Planning to Completion"),
    Str("Transform your kitchen with our comprehensive guide covering everything from initial planning to final touches. Learn from industry experts."),
    Str("Sarah Mitchell"),
    Plain(Str("January 15, 2025")),
    Str("12 min read"),
    Str("Home Renovation"),
    Str("/lovable-uploads/b63cd1f9-6e40-4716-bda0-9c34b9f6d061.png"),
    true)

  // ----- postsFromApi -----

  /** `item.attributes || item || {}`. */
  function Attributes(item: Value): (attr: Value)
    ensures attr == FirstTruthy([Get(item, "attributes"), item], Obj(map[]))
    ensures Truthy(attr)
  {
    var nested := Get(item, "attributes");
    FirstTruthyCons(nested, [item], Obj(map[]));
    FirstTruthyCons(item, [], Obj(map[]));
    assert [nested] + [item] == [nested, item] && [item] + [] == [item];
    Or(Or(nested, item), Obj(map[]))
  }

  /** The maximum length of a preview cut from a block body. */
  const PreviewLength: nat := 220

  /** The preview cut from a block body: markdown characters removed, HTML tags
      removed, the first 220 characters kept. */
  function Preview(body: string): (r: string)
    ensures |r| <= PreviewLength
  {
    Take(StripTags(RemoveMarkdown(body)), PreviewLength)
  }

  /** Since every `>` is gone before the tag pattern runs, the preview is just the
      first 220 characters of the body without its markdown characters. */
  lemma PreviewIsCutOfCleanBody(body: string)
    ensures Preview(body) == Take(RemoveMarkdown(body), PreviewLength)
    ensures |Preview(body)| <= PreviewLength
    ensures forall i :: 0 <= i < |Preview(body)| ==> Preview(body)[i] !in MarkdownChars
  {
    StripTagsWithoutGt(RemoveMarkdown(body));
  }

  /** The preview from the first block, when `blocks` is a non-empty array whose first
      element is truthy and has a string `body`. */
  function BlockPreview(attr: Value): (r: Option<string>)
    ensures r.Some? ==> |r.value| <= PreviewLength
  {
    var blocks := Get(attr, "blocks");
    if blocks.Arr? && |blocks.items| > 0 && Truthy(blocks.items[0]) &&
       Get(blocks.items[0], "body").Str?
    then Some(Preview(Get(blocks.items[0], "body").s))
    else None
  }

  /** `description || excerpt || ''`, replaced by the block preview when empty. */
  function ExcerptOf(attr: Value): (r: Value)
    ensures r == Str("") || Truthy(r)
  {
    var excerpt := Or(Or(Get(attr, "description"), Get(attr, "excerpt")), Str(""));
    if !Truthy(excerpt) && BlockPreview(attr).Some? then Str(BlockPreview(attr).value)
    else excerpt
  }

  /** `author.data.attributes.name || authorName || author || 'Trade Pilot'`. */
  function AuthorOf(attr: Value): (r: Value)
    ensures Truthy(r)
  {
    Or(Or(Or(Path(attr, ["author", "data", "attributes", "name"]), Get(attr, "authorName")),
          Get(attr, "author")),
       Str("Trade Pilot"))
  }

  /** The locale rendering of `publishedAt` when truthy, else `date || ''`. */
  function DateOf(attr: Value): (d: PostDate)
    ensures Truthy(Get(attr, "publishedAt")) ==> d == Formatted(Get(attr, "publishedAt"))
    ensures !Truthy(Get(attr, "publishedAt")) ==> d == Plain(FirstTruthy([Get(attr, "date")], Str("")))
  {
    if Truthy(Get(attr, "publishedAt")) then Formatted(Get(attr, "publishedAt"))
    else Plain(Or(Get(attr, "date"), Str("")))
  }

  /** `readTime || read_time || read || '5 min read'`. */
  function ReadTimeOf(attr: Value): (r: Value)
    ensures Truthy(r)
  {
    Or(Or(Or(Get(attr, "readTime"), Get(attr, "read_time")), Get(attr, "read")), Str("5 min read"))
  }

  /** `category` when it is a string, `''` otherwise. */
  function CategoryString(attr: Value): Value
  {
    if Get(attr, "category").Str? then Get(attr, "category") else Str("")
  }

  /** The category: the related entry's name, the embedded object's name, a plain
      string, the first of `categories`, or 'General'. */
  function CategoryOf(attr: Value): (r: Value)
    ensures Truthy(r)
  {
    Or(Or(Or(Or(Path(attr, ["category", "data", "attributes", "name"]),
                Path(attr, ["category", "name"])),
             CategoryString(attr)),
          Path(First(Path(attr, ["categories", "data"])), ["attributes", "name"])),
       Str("General"))
  }

  /** The image locations, in the order they are tried. */
  const ImagePaths: seq<seq<string>> := [
    ["cover", "formats", "large", "url"],
    ["cover", "formats", "medium", "url"],
    ["cover", "formats", "thumbnail", "url"],
    ["cover", "url"],
    ["image", "data", "attributes", "url"],
    ["image", "url"],
    ["thumbnail", "data", "attributes", "url"]]

  /** The image: the first truthy of the seven locations, `''` when none is. */
  function ImageOf(attr: Value): (r: Value)
    ensures r == Str("") || Truthy(r)
  {
    if Truthy(Path(attr, ImagePaths[0])) then Path(attr, ImagePaths[0])
    else if Truthy(Path(attr, ImagePaths[1])) then Path(attr, ImagePaths[1])
    else if Truthy(Path(attr, ImagePaths[2])) then Path(attr, ImagePaths[2])
    else if Truthy(Path(attr, ImagePaths[3])) then Path(attr, ImagePaths[3])
    else if Truthy(Path(attr, ImagePaths[4])) then Path(attr, ImagePaths[4])
    else if Truthy(Path(attr, ImagePaths[5])) then Path(attr, ImagePaths[5])
    else if Truthy(Path(attr, ImagePaths[6])) then Path(attr, ImagePaths[6])
    else Str("")
  }

  /** The values at the seven image locations, in order. */
  function ImageCandidates(attr: Value): (c: seq<Value>)
    ensures |c| == |ImagePaths| && forall i :: 0 <= i < |c| ==> c[i] == Path(attr, ImagePaths[i])
  {
    seq(|ImagePaths|, i requires 0 <= i < |ImagePaths| => Path(attr, ImagePaths[i]))
  }

  /** One CMS entry as a post. Author, read time and category always show something;
      title and image are either shown or `''`. */
  function ToPost(item: Value): (p: Post)
    ensures Truthy(p.author) && Truthy(p.readTime) && Truthy(p.category)
    ensures p.title == Str("") || Truthy(p.title)
    ensures p.image == Str("") || Truthy(p.image)
    ensures p.featured <==> Truthy(Get(Attributes(item), "featured"))
  {
    var attr := Attributes(item);
    Post(
      Or(Get(item, "id"), Get(attr, "id")),
      Or(Get(attr, "title"), Str("")),
      ExcerptOf(attr),
      AuthorOf(attr),
      DateOf(attr),
      ReadTimeOf(attr),
      CategoryOf(attr),
      ImageOf(attr),
      Truthy(Get(attr, "featured")))
  }

  /** `items.map(f)` where `f` reads `.attributes` of its entry, so that the first
      `null`/`undefined` entry throws and fails the whole map. */
  function MapEntries<T>(items: seq<Value>, f: Value -> T): (r: Result<seq<T>>)
    ensures r.Ok? <==> forall i :: 0 <= i < |items| ==> items[i] != Null
    ensures r.Ok? ==> |r.value| == |items| &&
                      forall i :: 0 <= i < |items| ==> r.value[i] == f(items[i])
    decreases |items|
  {
    if |items| == 0 then Ok([])
    else if items[0] == Null then Failure("TypeError: cannot read properties of null")
    else
      match MapEntries(items[1..], f)
      case Failure(e) =>
        assert exists j :: 0 <= j < |items| - 1 && items[1..][j] == Null;
        Failure(e)
      case Ok(rest) =>
        assert forall i :: 1 <= i < |items| ==> items[i] == items[1..][i - 1];
        Ok([f(items[0])] + rest)
  }

  /** `(data?.data || []).map(...)`: one post per entry of `data.data`, in order;
      no posts when `data.data` is missing or falsy; a failure when it is a truthy
      non-array (which has no `map`) or holds a `null` entry. */
  function PostsFromApi(data: Value): (r: Result<seq<Post>>)
    ensures !Truthy(Get(data, "data")) ==> r == Ok([])
    ensures Truthy(Get(data, "data")) && !Get(data, "data").Arr? ==> r.Failure?
    ensures Get(data, "data").Arr? ==>
      var items := Get(data, "data").items;
      (r.Ok? <==> forall i :: 0 <= i < |items| ==> items[i] != Null) &&
      (r.Ok? ==> |r.value| == |items| && forall i :: 0 <= i < |items| ==> r.value[i] == ToPost(items[i]))
  {
    var list := Or(Get(data, "data"), Arr([]));
    if !list.Arr? then Failure("TypeError: map is not a function")
    else MapEntries(list.items, ToPost)
  }

  /** A fallback chain over seven candidates, written out as nested `||`. */
  lemma FirstTruthyOfSeven(c: seq<Value>, d: Value)
    requires |c| == 7
    ensures FirstTruthy(c, d) == Or(c[0], Or(c[1], Or(c[2], Or(c[3], Or(c[4], Or(c[5], Or(c[6], d)))))))
  {
    forall k | 0 <= k < |c| ensures FirstTruthy(c[k..], d) == Or(c[k], FirstTruthy(c[k + 1..], d)) {
      assert c[k..][1..] == c[k + 1..];
    }
    assert c[7..] == [] && c[0..] == c;
  }

  /** The image chain is the fallback chain over the seven locations with `''` last. */
  lemma {:induction false} ImagePrecedence(attr: Value)
    ensures ImageOf(attr) == FirstTruthy(ImageCandidates(attr), Str(""))
  {
    var c := ImageCandidates(attr);
    var d := Str("");
    FirstTruthyOfSeven(c, d);
    assert ImageOf(attr) == Or(c[0], Or(c[1], Or(c[2], Or(c[3], Or(c[4], Or(c[5], Or(c[6], d)))))));
  }

  /** The excerpt is the first truthy of `description` and `excerpt`, else the block
      preview, else `''`. */
  lemma {:induction false} ExcerptPrecedence(attr: Value)
    ensures ExcerptOf(attr) ==
      FirstTruthy([Get(attr, "description"), Get(attr, "excerpt")],
                  if BlockPreview(attr).Some? then Str(BlockPreview(attr).value) else Str(""))
  {
    var d := if BlockPreview(attr).Some? then Str(BlockPreview(attr).value) else Str("");
    FirstTruthyCons(Get(attr, "excerpt"), [], d);
    FirstTruthyCons(Get(attr, "description"), [Get(attr, "excerpt")], d);
    assert [Get(attr, "excerpt")] + [] == [Get(attr, "excerpt")];
    assert [Get(attr, "description")] + [Get(attr, "excerpt")] ==
           [Get(attr, "description"), Get(attr, "excerpt")];
  }

  /** A block-derived excerpt is at most 220 characters long and contains none of
      the markdown characters. */
  lemma BlockExcerptIsClean(attr: Value)
    requires !Truthy(Get(attr, "description")) && !Truthy(Get(attr, "excerpt"))
    requires BlockPreview(attr).Some?
    ensures ExcerptOf(attr).Str?
    ensures var e := ExcerptOf(attr).s;
      |e| <= PreviewLength && forall i :: 0 <= i < |e| ==> e[i] !in MarkdownChars
  {
    var blocks := Get(attr, "blocks");
    PreviewIsCutOfCleanBody(Get(blocks.items[0], "body").s);
  }

  /** Author, read time and category are fallback chains ending in their defaults. */
  lemma {:induction false} DefaultedFieldChains(attr: Value)
    ensures AuthorOf(attr) == FirstTruthy(
      [Path(attr, ["author", "data", "attributes", "name"]), Get(attr, "authorName"), Get(attr, "author")],
      Str("Trade Pilot"))
    ensures ReadTimeOf(attr) == FirstTruthy(
      [Get(attr, "readTime"), Get(attr, "read_time"), Get(attr, "read")], Str("5 min read"))
    ensures CategoryOf(attr) == FirstTruthy(
      [Path(attr, ["category", "data", "attributes", "name"]), Path(attr, ["category", "name"]),
       CategoryString(attr), Path(First(Path(attr, ["categories", "data"])), ["attributes", "name"])],
      Str("General"))
  {
    ChainOfThree(Path(attr, ["author", "data", "attributes", "name"]), Get(attr, "authorName"),
                 Get(attr, "author"), Str("Trade Pilot"));
    ChainOfThree(Get(attr, "readTime"), Get(attr, "read_time"), Get(attr, "read"), Str("5 min read"));
    var c3 := Path(First(Path(attr, ["categories", "data"])), ["attributes", "name"]);
    ChainOfThree(Path(attr, ["category", "name"]), CategoryString(attr), c3, Str("General"));
    var c0 := Path(attr, ["category", "data", "attributes", "name"]);
    FirstTruthyCons(c0, [Path(attr, ["category", "name"]), CategoryString(attr), c3], Str("General"));
    assert [c0] + [Path(attr, ["category", "name"]), CategoryString(attr), c3] ==
           [c0, Path(attr, ["category", "name"]), CategoryString(attr), c3];
  }

  /** `a || b || c || d` is the fallback chain over `[a, b, c]` with fallback `d`. */
  lemma {:induction false} ChainOfThree(a: Value, b: Value, c: Value, d: Value)
    ensures Or(Or(Or(a, b), c), d) == FirstTruthy([a, b, c], d)
    ensures Or(a, Or(Or(b, c), d)) == FirstTruthy([a, b, c], d)
  {
    FirstTruthyCons(c, [], d);
    FirstTruthyCons(b, [c], d);
    FirstTruthyCons(a, [b, c], d);
    assert [c] + [] == [c];
    assert [b] + [c] == [b, c];
    assert [a] + [b, c] == [a, b, c];
  }

  /** An entry with no usable fields gets every default: 'Trade Pilot', '5 min read',
      'General', no image, empty title and excerpt, not featured. */
  lemma EmptyEntryDefaults()
    ensures ToPost(Obj(map[])) ==
      Post(Null, Str(""), Str(""), Str("Trade Pilot"), Plain(Str("")), Str("5 min read"),
           Str("General"), Str(""), false)
  {
    var e := Obj(map[]);
    assert Attributes(e) == e;
    assert AuthorOf(e) == Str("Trade Pilot") by {
      PathFromEmpty(["author", "data", "attributes", "name"]);
    }
    EmptyEntryCategory();
    EmptyEntryImage();
    assert ExcerptOf(e) == Str("");
    assert ReadTimeOf(e) == Str("5 min read");
    assert DateOf(e) == Plain(Str(""));
  }

  /** An entry with no fields falls through the category chain to 'General'. */
  lemma EmptyEntryCategory()
    ensures CategoryOf(Obj(map[])) == Str("General")
  {
    PathFromEmpty(["category", "data", "attributes", "name"]);
    PathFromEmpty(["category", "name"]);
    PathFromEmpty(["categories", "data"]);
    PathFromNull(["attributes", "name"]);
  }

  /** An entry with no fields has none of the seven image locations. */
  lemma EmptyEntryImage()
    ensures ImageOf(Obj(map[])) == Str("")
  {
    forall i | 0 <= i < |ImagePaths| ensures Path(Obj(map[]), ImagePaths[i]) == Null {
      PathFromEmpty(ImagePaths[i]);
    }
  }

  /** Following a path from `undefined` finds nothing. */
  lemma {:induction false} PathFromNull(keys: seq<string>)
    ensures Path(Null, keys) == Null
    decreases |keys|
  {
    if |keys| > 0 {
      PathFromNull(keys[1..]);
    }
  }

  /** Following a non-empty path from an empty object finds nothing. */
  lemma PathFromEmpty(keys: seq<string>)
    requires |keys| > 0
    ensures Path(Obj(map[]), keys) == Null
  {
    PathFromNull(keys[1..]);
  }

  // ----- featuredPost -----

  /** The index of the first featured post. */
  function FirstFeatured(posts: seq<Post>): (r: Option<nat>)
    ensures r.Some? ==> r.value < |posts| && posts[r.value].featured &&
                        forall j :: 0 <= j < r.value ==> !posts[j].featured
    ensures r.None? ==> forall j :: 0 <= j < |posts| ==> !posts[j].featured
    decreases |posts|
  {
    if |posts| == 0 then None
    else if posts[0].featured then Some(0)
    else match FirstFeatured(posts[1..])
      case None => None
      case Some(i) => Some(i + 1)
  }

  /** `(posts.find(p => p.featured) || posts[0]) ?? fallbackFeaturedPost`: the first
      featured post, else the first post, else the fallback; never undefined. */
  function FeaturedPost(posts: seq<Post>): (r: Post)
    ensures |posts| == 0 ==> r == FallbackFeaturedPost
    ensures (exists i :: 0 <= i < |posts| && posts[i].featured) ==>
      exists i :: 0 <= i < |posts| && r == posts[i] && r.featured &&
                  forall j :: 0 <= j < i ==> !posts[j].featured
    ensures |posts| > 0 && (forall i :: 0 <= i < |posts| ==> !posts[i].featured) ==> r == posts[0]
  {
    match FirstFeatured(posts)
    case Some(i) => posts[i]
    case None => if |posts| > 0 then posts[0] else FallbackFeaturedPost
  }

  /** When the listing fetch fails (or its body is `null`), there are no posts and the hero shows the
      fallback post. */
  lemma FailedFetchShowsFallback(resp: Api.Response)
    requires resp.NetworkError? || !resp.ok || resp.body.None? || resp.body == Some(Null)
    ensures PostsFromApi(Api.FetchArticles(resp)) == Ok([])
    ensures FeaturedPost([]) == FallbackFeaturedPost
  {
    assert Get(Api.EmptyListing, "data") == Arr([]);
  }

  // ----- filteredPosts -----

  /** The category tab that shows every category. */
  const AllPosts: string := "All Posts"

  /** The page's filter state: selected category and search term. */
  datatype Filters = Filters(category: string, term: string)

  /** The initial state, which the "Clear Filters" button restores. */
  const ClearedFilters: Filters := Filters(AllPosts, "")

  /** `selectedCategory === 'All Posts' || post.category === selectedCategory`. */
  predicate CategoryMatches(p: Post, category: string)
  {
    category == AllPosts || p.category == Str(category)
  }

  /** Whether a post is kept; `None` when `toLowerCase` is called on a title, or (the
      title not matching, since `||` stops at a match) an excerpt, that is not a
      string. */
  function Keep(p: Post, f: Filters): (r: Option<bool>)
    ensures r.None? <==>
      !p.title.Str? || (!Includes(Lower(p.title.s), Lower(f.term)) && !p.excerpt.Str?)
    ensures r == Some(true) ==> CategoryMatches(p, f.category)
  {
    var term := Lower(f.term);
    match p.title
    case Str(title) =>
      if Includes(Lower(title), term) then Some(CategoryMatches(p, f.category))
      else (match p.excerpt
            case Str(excerpt) => Some(CategoryMatches(p, f.category) && Includes(Lower(excerpt), term))
            case _ => None)
    case _ => None
  }

  /** Reference definition of a wanted post: its category matches, and the lowercased
      term occurs in the lowercased title or excerpt. */
  ghost predicate Wanted(p: Post, f: Filters)
  {
    CategoryMatches(p, f.category) &&
    ((p.title.Str? && OccursIn(Lower(f.term), Lower(p.title.s))) ||
     (p.excerpt.Str? && OccursIn(Lower(f.term), Lower(p.excerpt.s))))
  }

  /** When the filter callback returns, it returns exactly whether the post is wanted. */
  lemma KeepIsWanted(p: Post, f: Filters)
    requires Keep(p, f).Some?
    ensures Keep(p, f).value <==> Wanted(p, f)
  {
    IncludesIff(Lower(p.title.s), Lower(f.term));
    if p.excerpt.Str? {
      IncludesIff(Lower(p.excerpt.s), Lower(f.term));
    }
  }

  /** `blogPosts.filter(...)`: `None` when the callback throws for some post. */
  function FilterPosts(posts: seq<Post>, f: Filters): (r: Option<seq<Post>>)
    ensures r.Some? <==> forall i :: 0 <= i < |posts| ==> Keep(posts[i], f).Some?
    ensures r.Some? ==> |r.value| <= |posts|
    ensures r.Some? ==> forall p :: p in r.value ==> p in posts && Keep(p, f) == Some(true)
    ensures r.Some? ==> forall p :: p in posts && Keep(p, f) == Some(true) ==> p in r.value
    ensures r.Some? ==>
      forall p :: multiset(r.value)[p] == (if Keep(p, f) == Some(true) then multiset(posts)[p] else 0)
    decreases |posts|
  {
    if |posts| == 0 then Some([])
    else
      match Keep(posts[0], f)
      case None => None
      case Some(keep) =>
        match FilterPosts(posts[1..], f)
        case None =>
          assert exists i :: 0 <= i < |posts| - 1 && Keep(posts[1..][i], f).None?;
          None
        case Some(rest) =>
          assert posts == [posts[0]] + posts[1..];
          assert multiset(posts) == multiset{posts[0]} + multiset(posts[1..]);
          Some(if keep then [posts[0]] + rest else rest)
  }

  /** The filter keeps the posts in their original order. */
  lemma {:induction false} FilterPreservesOrder(posts: seq<Post>, f: Filters)
    requires FilterPosts(posts, f).Some?
    ensures SubsequenceOf(FilterPosts(posts, f).value, posts)
    decreases |posts|
  {
    if |posts| > 0 {
      FilterPreservesOrder(posts[1..], f);
      var rest := FilterPosts(posts[1..], f).value;
      var r := FilterPosts(posts, f).value;
      if Keep(posts[0], f) == Some(true) {
        assert r == [posts[0]] + rest;
        assert r[1..] == rest;
      } else {
        assert r == rest;
        SkipHead(rest, posts);
      }
    }
  }

  /** With the cleared filters (all categories, empty search) every post is kept, as
      long as every title is a string. */
  lemma {:induction false} ClearedFiltersKeepAll(posts: seq<Post>)
    requires forall i :: 0 <= i < |posts| ==> posts[i].title.Str?
    ensures FilterPosts(posts, ClearedFilters) == Some(posts)
    decreases |posts|
  {
    if |posts| > 0 {
      EmptyIsIncluded(Lower(posts[0].title.s));
      assert Lower(ClearedFilters.term) == "";
      assert Keep(posts[0], ClearedFilters) == Some(true);
      ClearedFiltersKeepAll(posts[1..]);
      assert FilterPosts(posts, ClearedFilters) == Some([posts[0]] + posts[1..]);
      assert [posts[0]] + posts[1..] == posts;
    }
  }

  // ----- count label -----

  /** "N article(s) found", shown only when some post is visible. */
  function CountLabel(n: nat): (r: Option<string>)
    ensures r.None? <==> n == 0
    ensures r.Some? ==> StartsWith(r.value, Decimal(n))
    ensures r.Some? ==> (EndsWith(r.value, "s found") <==> n != 1)
  {
    if n == 0 then None
    else
      var shown := Decimal(n) + " article" + (if n != 1 then "s" else "") + " found";
      assert shown[..|Decimal(n)|] == Decimal(n);
      assert n != 1 ==> shown[|shown| - 7..] == "s found";
      assert n == 1 ==> shown == "1 article found";
      Some(shown)
  }
}

=== FILE: json.dfy ===
/** Loosely shaped JSON as JavaScript sees it, with the operators the CMS adapters
    apply to it: truthiness, `||`, optional chaining (`?.`) and indexing. */
module Json {

  /** A JSON value. `Null` stands for both `null` and `undefined`: every test the
      adapters apply to a possibly missing value (truthiness, `?.`, `??`) treats the
      two alike. Numbers are integers. */
  datatype Value =
    | Null
    | Bool(b: bool)
    | Num(n: int)
    | Str(s: string)
    | Arr(items: seq<Value>)
    | Obj(fields: map<string, Value>)

  /** JavaScript truthiness: `null`, `undefined`, `false`, `0` and `''` are falsy;
      every array and object is truthy, even an empty one. */
  predicate Truthy(v: Value)
  {
    match v
    case Null => false
    case Bool(b) => b
    case Num(n) => n != 0
    case Str(s) => s != ""
    case Arr(_) => true
    case Obj(_) => true
  }

  /** `a || b`: the first operand when it is truthy, otherwise the second. */
  function Or(a: Value, b: Value): Value
  {
    if Truthy(a) then a else b
  }

  /** `v?.key`: the property of an object, `undefined` for anything else or a missing
      key (the adapters only read keys that strings and arrays do not have). */
  function Get(v: Value, key: string): Value
  {
    if v.Obj? && key in v.fields then v.fields[key] else Null
  }

  /** `v?.[0]`: the first element of an array, the first character of a string, the
      property "0" of an object, `undefined` otherwise. */
  function First(v: Value): Value
  {
    match v
    case Arr(items) => if |items| > 0 then items[0] else Null
    case Str(s) => if |s| > 0 then Str([s[0]]) else Null
    case Obj(fields) => if "0" in fields then fields["0"] else Null
    case _ => Null
  }

  /** `v?.k0?.k1?...`: follows a chain of property names. */
  function Path(v: Value, keys: seq<string>): Value
    decreases |keys|
  {
    if |keys| == 0 then v else Path(Get(v, keys[0]), keys[1..])
  }

  /** `v.length` for an array or a string, `undefined` for anything else. */
  function Length(v: Value): Value
  {
    match v
    case Arr(items) => Num(|items|)
    case Str(s) => Num(|s|)
    case _ => Null
  }

  /** `v0 || v1 || ... || fallback`, written as a reference definition of a
      fallback chain over a list of candidates. */
  function FirstTruthy(vals: seq<Value>, fallback: Value): Value
    decreases |vals|
  {
    if |vals| == 0 then fallback
    else if Truthy(vals[0]) then vals[0]
    else FirstTruthy(vals[1..], fallback)
  }

  /** What a fallback chain picks: the first truthy candidate, with every candidate
      before it falsy; or the fallback, when every candidate is falsy. */
  lemma {:induction false} FirstTruthyPicks(vals: seq<Value>, fallback: Value)
    ensures var r := FirstTruthy(vals, fallback);
      (exists i :: 0 <= i < |vals| && Truthy(vals[i]) && r == vals[i] &&
         forall j :: 0 <= j < i ==> !Truthy(vals[j])) ||
      ((forall j :: 0 <= j < |vals| ==> !Truthy(vals[j])) && r == fallback)
    decreases |vals|
  {
    if |vals| > 0 && !Truthy(vals[0]) {
      FirstTruthyPicks(vals[1..], fallback);
      var r := FirstTruthy(vals, fallback);
      if exists i :: 0 <= i < |vals| - 1 && Truthy(vals[1..][i]) && r == vals[1..][i] &&
           forall j :: 0 <= j < i ==> !Truthy(vals[1..][j]) {
        var i :| 0 <= i < |vals| - 1 && Truthy(vals[1..][i]) && r == vals[1..][i] &&
           forall j :: 0 <= j < i ==> !Truthy(vals[1..][j]);
        assert forall j :: 0 <= j < i + 1 ==> !Truthy(vals[j]) by {
          forall j | 0 <= j < i + 1 ensures !Truthy(vals[j]) {
            if j > 0 { assert vals[j] == vals[1..][j - 1]; }
          }
        }
      } else {
        assert forall j :: 0 <= j < |vals| ==> !Truthy(vals[j]) by {
          forall j | 0 <= j < |vals| ensures !Truthy(vals[j]) {
            if j > 0 { assert vals[j] == vals[1..][j - 1]; }
          }
        }
      }
    }
  }

  /** Unfolding a fallback chain by one candidate: `v || (rest...)`. */
  lemma FirstTruthyCons(v: Value, rest: seq<Value>, fallback: Value)
    ensures FirstTruthy([v] + rest, fallback) == Or(v, FirstTruthy(rest, fallback))
  {
    assert ([v] + rest)[1..] == rest;
  }
}

=== FILE: lead_purchase.dfy ===
/** The lead purchase view (src/components/Trade-CRM/LeadPurchase.tsx): which leads a
    trade sees, whether each can still be accepted, the trade's own bid, the
    priority badge colour, and the purchase it submits. */
module LeadPurchase {
  import opened Wrappers
  import opened Seqs
  import opened Profiles
  import Api

  /** A bid on a lead; `bidBy` is the bidder's profile id (`null` when unset). */
  datatype Bid = Bid(id: int, bidBy: Option<string>, proposedValue: Option<string>)

  /** A lead as fetched with its bids; `location` is `null` when unset. */
  datatype Lead = Lead(id: int, service: string, location: Option<string>, priority: string,
                       bids: Option<seq<Bid>>)

  // ----- getStatusColor -----

  /** The class list of a priority badge in the given Tailwind colour. */
  function Badge(colour: string): string
  {
    "bg-" + colour + "-100 capitalize text-" + colour + "-800 dark:bg-" + colour +
      "-900 dark:text-" + colour + "-300"
  }

  const HighBadge: string := Badge("red")
  const MediumBadge: string := Badge("orange")
  const LowBadge: string := Badge("blue")
  const DefaultBadge: string := Badge("gray")

  /** Badges of different colours differ: the colour starts at the fourth character. */
  lemma BadgeColourAt3(colour: string)
    requires |colour| > 0
    ensures |Badge(colour)| > 3 && Badge(colour)[3] == colour[0]
  {
  }

  /** `getStatusColor(status)`: a class list for every status. */
  function StatusColor(status: string): (r: string)
    ensures r == DefaultBadge <==> status != "high" && status != "medium" && status != "low"
    ensures r in {HighBadge, MediumBadge, LowBadge, DefaultBadge}
  {
    match status
    case "high" => HighBadge
    case "medium" => MediumBadge
    case "low" => BadgeColourAt3("blue"); BadgeColourAt3("gray"); LowBadge
    case _ => DefaultBadge
  }

  /** The three known priorities get three different colours. */
  lemma StatusColorsDistinct()
    ensures StatusColor("high") != StatusColor("medium")
    ensures StatusColor("high") != StatusColor("low")
    ensures StatusColor("medium") != StatusColor("low")
  {
    BadgeColourAt3("red");
    BadgeColourAt3("orange");
    BadgeColourAt3("blue");
  }

  // ----- filteredLeads -----

  /** `profile?.postcode`: `None` without a profile or without a postcode. */
  function PostcodeOf(profile: Option<Profile>): Option<string>
  {
    if profile.Some? then profile.value.postcode else None
  }

  /** `leads.filter(item => item.location == postcode)`. The comparison is loose
      equality, so a lead with a `null` location matches a missing postcode. */
  function LeadsInPostcode(leads: seq<Lead>, postcode: Option<string>): (r: seq<Lead>)
    ensures |r| <= |leads|
    ensures forall l :: l in r ==> l in leads && l.location == postcode
    ensures forall l :: l in leads && l.location == postcode ==> l in r
    ensures forall l :: multiset(r)[l] == (if l.location == postcode then multiset(leads)[l] else 0)
    decreases |leads|
  {
    if |leads| == 0 then []
    else
      assert leads == [leads[0]] + leads[1..];
      assert multiset(leads) == multiset{leads[0]} + multiset(leads[1..]);
      if leads[0].location == postcode then [leads[0]] + LeadsInPostcode(leads[1..], postcode)
      else LeadsInPostcode(leads[1..], postcode)
  }

  /** The visible leads keep their fetched order. */
  lemma {:induction false} LeadsInPostcodeKeepsOrder(leads: seq<Lead>, postcode: Option<string>)
    ensures SubsequenceOf(LeadsInPostcode(leads, postcode), leads)
    decreases |leads|
  {
    if |leads| > 0 {
      LeadsInPostcodeKeepsOrder(leads[1..], postcode);
      var rest := LeadsInPostcode(leads[1..], postcode);
      if leads[0].location == postcode {
        assert ([leads[0]] + rest)[1..] == rest;
      } else {
        SkipHead(rest, leads);
      }
    }
  }

  // ----- purchase eligibility -----

  /** `profile?.leads?.includes(id)`, with `undefined` read as false. */
  predicate AlreadyPurchased(profile: Option<Profile>, leadId: int)
  {
    profile.Some? && profile.value.leads.Some? && leadId in profile.value.leads.value
  }

  /** The accept button of a lead card. */
  datatype Button = Button(disabled: bool, caption: string)

  /** Disabled and captioned 'Accepted' for a lead already in the profile's list,
      enabled and captioned 'Accept' otherwise. */
  function PurchaseButton(profile: Option<Profile>, leadId: int): (b: Button)
    ensures b.disabled <==> b.caption == "Accepted"
    ensures b.disabled <==> profile.Some? && leadId in PurchasedLeads(profile.value)
    ensures !b.disabled ==> b.caption == "Accept"
  {
    var bought := AlreadyPurchased(profile, leadId);
    Button(bought, if bought then "Accepted" else "Accept")
  }

  /** Eligibility is list membership only: the credit balance plays no part. */
  lemma ButtonIgnoresCredit(p: Profile, credit: Option<int>, leadId: int)
    ensures PurchaseButton(Some(p.(credit := credit)), leadId) == PurchaseButton(Some(p), leadId)
  {
  }

  /** Once the profile row holds the purchase, the lead's button is disabled. */
  lemma PurchasedLeadIsAccepted(p: Profile, leadId: int)
    ensures PurchaseButton(Some(Api.WithPurchase(p, leadId)), leadId) == Button(true, "Accepted")
  {
    var q := Api.WithPurchase(p, leadId);
    assert PurchasedLeads(q)[|PurchasedLeads(p)|] == leadId;
  }

  // ----- userBid -----

  /** The index of the first bid made by `profileId`. */
  function FirstBidBy(bids: seq<Bid>, profileId: string): (r: Option<nat>)
    ensures r.Some? ==> r.value < |bids| && bids[r.value].bidBy == Some(profileId) &&
                        forall j :: 0 <= j < r.value ==> bids[j].bidBy != Some(profileId)
    ensures r.None? ==> forall j :: 0 <= j < |bids| ==> bids[j].bidBy != Some(profileId)
    decreases |bids|
  {
    if |bids| == 0 then None
    else if bids[0].bidBy == Some(profileId) then Some(0)
    else match FirstBidBy(bids[1..], profileId)
      case None => None
      case Some(i) => Some(i + 1)
  }

  /** `lead.bids?.find(bid => bid.bid_by === profile?.id)`: the current user's first
      bid. Without a profile the id is `undefined`, which no stored bid has. */
  function UserBid(lead: Lead, profile: Option<Profile>): (r: Option<Bid>)
    ensures r.Some? ==> profile.Some? && lead.bids.Some? && r.value in lead.bids.value &&
                        r.value.bidBy == Some(profile.value.id)
    ensures r.Some? ==>
      exists i :: 0 <= i < |lead.bids.value| && lead.bids.value[i] == r.value &&
                  forall j :: 0 <= j < i ==> lead.bids.value[j].bidBy != Some(profile.value.id)
    ensures r.None? && profile.Some? && lead.bids.Some? ==>
      forall b :: b in lead.bids.value ==> b.bidBy != Some(profile.value.id)
  {
    if profile.None? || lead.bids.None? then None
    else match FirstBidBy(lead.bids.value, profile.value.id)
      case None => None
      case Some(i) =>
        assert lead.bids.value[i] == lead.bids.value[i];
        Some(lead.bids.value[i])
  }

  // ----- handlePurchase -----

  /** The payload `addPurchase` receives. */
  datatype PurchaseRequest = PurchaseRequest(lead: int, userID: Option<string>)

  /** `handlePurchase(id)`: `{ lead: id, userID: profile?.id }`. */
  function PurchaseRequestFor(leadId: int, profile: Option<Profile>): (r: PurchaseRequest)
    ensures r.lead == leadId
    ensures r.userID.Some? <==> profile.Some?
    ensures profile.Some? ==> r.userID == Some(profile.value.id)
  {
    PurchaseRequest(leadId, if profile.Some? then Some(profile.value.id) else None)
  }

  const PurchasedToast: string := "Lead purchased successfully!"
  const ErrorToast: string := "Error! Try again"

  /** The component's state: the visible leads, the toasts shown, and how many times
      it asked for the lead query to be refetched. */
  class LeadPurchaseView {
    var filteredLeads: seq<Lead>
    var toasts: seq<string>
    var leadRefetches: nat

    constructor ()
      ensures filteredLeads == [] && toasts == [] && leadRefetches == 0
    {
      filteredLeads := [];
      toasts := [];
      leadRefetches := 0;
    }

    /** The effect on `[leadsLoading, leadsData, profile]`: nothing while loading;
        otherwise `filteredLeads` becomes the leads in the profile's postcode. When the
        query finished without data, `leadsData.filter` throws. */
    method LeadsChanged(loading: bool, leadsData: Option<seq<Lead>>, profile: Option<Profile>)
      returns (r: Result<()>)
      modifies this
      ensures loading ==> r.Ok? && filteredLeads == old(filteredLeads)
      ensures !loading && leadsData.None? ==> r.Failure? && filteredLeads == old(filteredLeads)
      ensures !loading && leadsData.Some? ==>
        r.Ok? && filteredLeads == LeadsInPostcode(leadsData.value, PostcodeOf(profile))
      ensures toasts == old(toasts) && leadRefetches == old(leadRefetches)
    {
      if loading {
        return Ok(());
      }
      if leadsData.None? {
        return Failure("TypeError: cannot read properties of undefined");
      }
      filteredLeads := LeadsInPostcode(leadsData.value, PostcodeOf(profile));
      r := Ok(());
    }

    /** Clicking accept on a lead: the request goes to `addPurchase` on the profiles
        table; success only shows a toast (the lead query is not refetched and the
        visible leads stay as they were), failure shows the error toast. */
    method HandlePurchase(table: Api.ProfilesTable, leadId: int, profile: Option<Profile>,
                          readFails: bool, writeFails: bool)
      returns (r: Result<()>)
      requires table.Valid()
      modifies this, table
      ensures table.Valid()
      ensures var id := PurchaseRequestFor(leadId, profile).userID;
        r.Ok? <==> id.Some? && id.value in old(table.rows) && !readFails && !writeFails
      ensures r.Ok? ==> table.rows == old(table.rows)[profile.value.id :=
                          Api.WithPurchase(old(table.rows)[profile.value.id], leadId)]
      ensures r.Failure? ==> table.rows == old(table.rows)
      ensures toasts == old(toasts) + [if r.Ok? then PurchasedToast else ErrorToast]
      ensures filteredLeads == old(filteredLeads) && leadRefetches == old(leadRefetches)
    {
      var request := PurchaseRequestFor(leadId, profile);
      r := table.AddPurchase(request.lead, request.userID, readFails, writeFails);
      if r.Ok? {
        toasts := toasts + [PurchasedToast];
      } else {
        toasts := toasts + [ErrorToast];
      }
    }
  }
}

=== FILE: login.dfy ===
/** The sign-in page (src/pages/Login.tsx): the tab it opens on, the submit guard,
    and the redirect that follows a successful sign-in once the profile is loaded. */
module Login {
  import opened Wrappers
  import opened Profiles

  const Trade: string := "trade"
  const Customer: string := "customer"
  const TradesCrm: string := "/trades-crm"
  const FindTradespeople: string := "/find-tradespeople"

  /** `initialType`: the `type` query parameter when it is 'trade', 'customer' for
      anything else, including a missing parameter. */
  function InitialType(typeParam: Option<string>): (r: string)
    ensures r == Trade <==> typeParam == Some(Trade)
    ensures r != Trade ==> r == Customer
  {
    if typeParam == Some(Trade) then Trade else Customer
  }

  /** Where a freshly signed-in user is sent, by role. */
  function Destination(role: string): (r: string)
    ensures r == TradesCrm <==> role == Trade
    ensures r != TradesCrm ==> r == FindTradespeople
  {
    if role == Trade then TradesCrm else FindTradespeople
  }

  /** The sign-up link under a login form. */
  datatype SignUp = SignUp(target: string, caption: string)

  /** The sign-up link of the form of the given tab type. */
  function SignUpLink(tabType: string): (r: SignUp)
    ensures r.target == "/trades/join" <==> tabType == Trade
    ensures r.target != "/trades/join" ==> r.target == "/join"
    ensures r.caption == "Sign up as a " + (if tabType == Trade then "Trade" else "Customer")
  {
    if tabType == Trade then SignUp("/trades/join", "Sign up as a Trade")
    else SignUp("/join", "Sign up as a Customer")
  }

  /** What `signIn` resolved to: whether `data` and `error` were present. */
  datatype SignInResult = SignInResult(hasData: bool, hasError: bool)

  /** `data && !error`. */
  predicate Succeeded(s: SignInResult)
  {
    s.hasData && !s.hasError
  }

  /** The page's state; `navigations` records every `navigate` call and `signIns`
      every credential pair handed to `signIn`. */
  class LoginPage {
    var email: string
    var password: string
    var justLoggedIn: bool
    var activeTab: string
    var navigations: seq<string>
    var signIns: seq<(string, string)>

    constructor (typeParam: Option<string>)
      ensures email == "" && password == "" && !justLoggedIn
      ensures activeTab == InitialType(typeParam)
      ensures navigations == [] && signIns == []
    {
      email := "";
      password := "";
      justLoggedIn := false;
      activeTab := InitialType(typeParam);
      navigations := [];
      signIns := [];
    }

    /** The inputs' change handlers. */
    method SetCredentials(e: string, p: string)
      modifies this
      ensures email == e && password == p
      ensures justLoggedIn == old(justLoggedIn) && activeTab == old(activeTab)
      ensures navigations == old(navigations) && signIns == old(signIns)
    {
      email := e;
      password := p;
    }

    /** `handleSubmit`: with an empty email or password nothing happens; otherwise
        `signIn` is called, and only a result with data and without error marks the
        user as just logged in. It never clears the flag. */
    method HandleSubmit(result: SignInResult) returns (called: bool)
      modifies this
      ensures called <==> email != "" && password != ""
      ensures signIns == old(signIns) + (if called then [(email, password)] else [])
      ensures justLoggedIn <==> old(justLoggedIn) || (called && Succeeded(result))
      ensures email == old(email) && password == old(password)
      ensures activeTab == old(activeTab) && navigations == old(navigations)
    {
      if email == "" || password == "" {
        return false;
      }
      signIns := signIns + [(email, password)];
      called := true;
      if result.hasData && !result.hasError {
        justLoggedIn := true;
      }
    }

    /** The redirect effect: once the user has just logged in and both the session
        user and the profile are present, navigate by role and clear the flag. */
    method RedirectEffect(userPresent: bool, profile: Option<Profile>) returns (target: Option<string>)
      modifies this
      ensures target.Some? <==> old(justLoggedIn) && userPresent && profile.Some?
      ensures target.Some? ==> target.value == Destination(profile.value.role) && !justLoggedIn
      ensures target.None? ==> justLoggedIn == old(justLoggedIn)
      ensures navigations == old(navigations) + (if target.Some? then [target.value] else [])
      ensures email == old(email) && password == old(password)
      ensures activeTab == old(activeTab) && signIns == old(signIns)
    {
      if justLoggedIn && userPresent && profile.Some? {
        var dest := Destination(profile.value.role);
        navigations := navigations + [dest];
        justLoggedIn := false;
        return Some(dest);
      }
      target := None;
    }
  }

  /** One sign-in, followed by the effect running before the profile has loaded,
      once it has, and again on a later render: exactly one navigation, to the
      profile's role page. */
  method SignInRedirectsOnce(tab: Option<string>, e: string, p: string, profile: Profile)
    returns (navigations: seq<string>)
    requires e != "" && p != ""
    ensures navigations == [Destination(profile.role)]
  {
    var page := new LoginPage(tab);
    page.SetCredentials(e, p);
    var called := page.HandleSubmit(SignInResult(true, false));
    var t1 := page.RedirectEffect(true, None);
    var t2 := page.RedirectEffect(true, Some(profile));
    var t3 := page.RedirectEffect(true, Some(profile));
    navigations := page.navigations;
  }

  /** A failed sign-in (an error, or no data) never navigates, however often the
      effect runs afterwards. */
  method FailedSignInStays(tab: Option<string>, e: string, p: string, result: SignInResult,
                           profile: Profile)
    returns (navigations: seq<string>)
    requires !Succeeded(result)
    ensures navigations == []
  {
    var page := new LoginPage(tab);
    page.SetCredentials(e, p);
    var called := page.HandleSubmit(result);
    var t1 := page.RedirectEffect(true, Some(profile));
    var t2 := page.RedirectEffect(true, Some(profile));
    navigations := page.navigations;
  }
}

=== FILE: media.dfy ===
/** `getMediaUrl`: turns a CMS media relation into an absolute URL (src/lib/media.tsx). */
module Media {
  import opened Wrappers
  import opened Json
  import opened Text

  /** The domain of the content service. */
  const CmsDomain: string := "reassuring-paradise-02bc2fb070.strapiapp.com"

  /** The host of the content service; relative media paths are resolved against it. */
  const CmsHost: string := "https://" + CmsDomain

  /** A URL starting with "http" is kept; anything else is taken as a path on the CMS host. */
  function Absolute(url: string): (r: string)
    ensures StartsWith(url, "http") ==> r == url
    ensures !StartsWith(url, "http") ==> r == CmsHost + "/" + url
    ensures StartsWith(r, "http")
    ensures EndsWith(r, url)
  {
    if StartsWith(url, "http") then url
    else
      var r := CmsHost + "/" + url;
      assert CmsHost[..4] == "https://"[..4];
      assert r[..4] == CmsHost[..4];
      assert r[|r| - |url|..] == url;
      r
  }

  /** Normalising an already normalised URL changes nothing. */
  lemma AbsoluteIdempotent(url: string)
    ensures Absolute(Absolute(url)) == Absolute(url)
  {
  }

  /** `getMediaUrl(media)`: `Ok(None)` for a missing media or a missing `data`
      (the source returns null), `Failure` when `data.attributes.url` is not a string
      (destructuring or `startsWith` throws), otherwise the absolute URL. */
  function GetMediaUrl(media: Value): (r: Result<Option<string>>)
    ensures !Truthy(media) || !Truthy(Get(media, "data")) ==> r == Ok(None)
    ensures r.Failure? <==>
      Truthy(media) && Truthy(Get(media, "data")) && !Path(media, ["data", "attributes", "url"]).Str?
    ensures r.Ok? && r.value.Some? ==>
      var url := Path(media, ["data", "attributes", "url"]).s;
      r.value.value == Absolute(url) &&
      StartsWith(r.value.value, "http") &&
      (StartsWith(url, "http") ==> r.value.value == url) &&
      EndsWith(r.value.value, url)
  {
    if !Truthy(media) || !Truthy(Get(media, "data")) then Ok(None)
    else
      match Get(Get(Get(media, "data"), "attributes"), "url")
      case Str(url) => Ok(Some(Absolute(url)))
      case _ => Failure("TypeError: url is undefined or not a string")
  }

  /** A media relation whose url is `url`, the shape the CMS sends. */
  function MediaWithUrl(url: string): Value
  {
    Obj(map["data" := Obj(map["attributes" := Obj(map["url" := Str(url)])])])
  }

  /** Idempotence: feeding a URL that `getMediaUrl` returned back through it gives the
      same URL. */
  lemma {:induction false} GetMediaUrlIdempotent(media: Value)
    requires GetMediaUrl(media).Ok? && GetMediaUrl(media).value.Some?
    ensures var url := GetMediaUrl(media).value.value;
      GetMediaUrl(MediaWithUrl(url)) == Ok(Some(url))
  {
    var url := GetMediaUrl(media).value.value;
    var m := MediaWithUrl(url);
    assert Path(m, ["data", "attributes", "url"]) == Str(url);
    AbsoluteIdempotent(Path(media, ["data", "attributes", "url"]).s);
  }
}

=== FILE: profiles.dfy ===
/** The profile record of src/lib/supabase.ts, reduced to the columns the core reads. */
module Profiles {
  import opened Wrappers

  /** A row of the `profiles` table. `leads` is the purchased-lead list (`null` when
      never written); `credit` is carried but no operation of the core reads or
      writes it. */
  datatype Profile = Profile(
    id: string,
    role: string,
    postcode: Option<string>,
    leads: Option<seq<int>>,
    credit: Option<int>)

  /** `profile.leads || []`: a missing list reads as empty. */
  function PurchasedLeads(p: Profile): seq<int>
  {
    if p.leads.Some? then p.leads.value else []
  }
}

=== FILE: seqs.dfy ===
/** Order-preserving selection, the shape of JavaScript's `Array.prototype.filter`. */
module Seqs {

  /** `r` is obtained from `s` by deleting elements, the rest kept in order. */
  ghost predicate SubsequenceOf<T>(r: seq<T>, s: seq<T>)
    decreases |s|
  {
    if |r| == 0 then true
    else if |s| == 0 then false
    else (r[0] == s[0] && SubsequenceOf(r[1..], s[1..])) || SubsequenceOf(r, s[1..])
  }

  /** Dropping the head of `s` keeps every subsequence of its tail a subsequence. */
  lemma SkipHead<T>(r: seq<T>, s: seq<T>)
    requires |s| > 0 && SubsequenceOf(r, s[1..])
    ensures SubsequenceOf(r, s)
  {
  }
}

=== FILE: text.dfy ===
/** The string operations the pages apply: ASCII `toLowerCase`, `startsWith`,
    `includes`, `slice(0, n)`, the two `replace` calls of the blog preview, and the
    decimal rendering of a count. Strings are sequences of Unicode scalar values. */
module Text {
  import opened Wrappers

  /** `c.toLowerCase()` on the ASCII letters; every other character is kept. */
  function LowerChar(c: char): char
  {
    if 'A' <= c <= 'Z' then (c as int + 32) as char else c
  }

  /** `s.toLowerCase()`, ASCII case folding character by character. */
  function Lower(s: string): (r: string)
    ensures |r| == |s|
    ensures forall i :: 0 <= i < |s| ==> r[i] == LowerChar(s[i])
  {
    seq(|s|, i requires 0 <= i < |s| => LowerChar(s[i]))
  }

  /** `s.startsWith(p)`. */
  predicate StartsWith(s: string, p: string)
  {
    |p| <= |s| && s[..|p|] == p
  }

  /** `s.endsWith(p)`. */
  predicate EndsWith(s: string, p: string)
  {
    |p| <= |s| && s[|s| - |p|..] == p
  }

  /** `s.includes(t)`, searched position by position from the left. */
  predicate Includes(s: string, t: string)
    decreases |s|
  {
    StartsWith(s, t) || (|s| > 0 && Includes(s[1..], t))
  }

  /** `t` occurs in `s` starting at position `i`. */
  ghost predicate OccursAt(t: string, s: string, i: int)
  {
    0 <= i <= |s| - |t| && s[i..i + |t|] == t
  }

  /** Reference definition: `t` occurs in `s` at some position. */
  ghost predicate OccursIn(t: string, s: string)
  {
    exists i :: OccursAt(t, s, i)
  }

  /** The left-to-right search finds `t` exactly when it occurs somewhere in `s`. */
  lemma {:induction false} IncludesIff(s: string, t: string)
    ensures Includes(s, t) <==> OccursIn(t, s)
    decreases |s|
  {
    if StartsWith(s, t) {
      assert OccursAt(t, s, 0);
    } else if |s| > 0 {
      IncludesIff(s[1..], t);
      if OccursIn(t, s) {
        var i :| OccursAt(t, s, i);
        assert i != 0;
        assert OccursAt(t, s[1..], i - 1);
      }
      if OccursIn(t, s[1..]) {
        var i :| OccursAt(t, s[1..], i);
        assert OccursAt(t, s, i + 1);
      }
    }
  }

  /** The empty string is included in every string (so an empty search term matches). */
  lemma EmptyIsIncluded(s: string)
    ensures Includes(s, "")
  {
    assert s[..0] == "";
  }

  /** `s.slice(0, n)`: the first `n` characters, or all of `s` when it is shorter. */
  function Take(s: string, n: nat): (r: string)
    ensures |r| == if |s| <= n then |s| else n
    ensures r == s[..|r|]
    ensures |s| <= n ==> r == s
  {
    if |s| <= n then s else s[..n]
  }

  /** The characters removed by `.replace(/[#>*_`]/g, '')`. */
  const MarkdownChars: set<char> := {'#', '>', '*', '_', '`'}

  /** `.replace(/[#>*_`]/g, '')`: every markdown character removed, the rest kept in order. */
  function RemoveMarkdown(s: string): (r: string)
    ensures |r| <= |s|
    ensures forall i :: 0 <= i < |r| ==> r[i] !in MarkdownChars
    ensures forall i :: 0 <= i < |s| && s[i] !in MarkdownChars ==> s[i] in r
    ensures forall c :: c !in MarkdownChars ==> multiset(r)[c] == multiset(s)[c]
    decreases |s|
  {
    if |s| == 0 then ""
    else
      assert s == [s[0]] + s[1..];
      assert multiset(s) == multiset{s[0]} + multiset(s[1..]);
      if s[0] in MarkdownChars then RemoveMarkdown(s[1..])
      else [s[0]] + RemoveMarkdown(s[1..])
  }

  /** The removal works character by character: cleaning a concatenation cleans each
      part and keeps them in order. */
  lemma {:induction false} RemoveMarkdownAppend(a: string, b: string)
    ensures RemoveMarkdown(a + b) == RemoveMarkdown(a) + RemoveMarkdown(b)
    decreases |a|
  {
    if |a| > 0 {
      assert (a + b)[0] == a[0];
      assert (a + b)[1..] == a[1..] + b;
      RemoveMarkdownAppend(a[1..], b);
    } else {
      assert a + b == b;
    }
  }

  /** The index of the first `c` in `s` at or after `from`. */
  function IndexFrom(s: string, c: char, from: nat): (r: Option<nat>)
    ensures r.Some? ==> from <= r.value < |s| && s[r.value] == c &&
                        forall k :: from <= k < r.value ==> s[k] != c
    ensures r.None? ==> forall k :: from <= k < |s| ==> s[k] != c
    decreases |s| - from
  {
    if from >= |s| then None
    else if s[from] == c then Some(from)
    else IndexFrom(s, c, from + 1)
  }

  /** `.replace(/<[^>]+>/g, '')`: scanning from the left, a `<` followed by at least
      one non-`>` character and then a `>` is removed together with everything up to
      and including that `>`; a `<` with no such match is kept. */
  function StripTags(s: string): (r: string)
    ensures |r| <= |s|
    ensures (forall i :: 0 <= i < |s| ==> s[i] != '<') ==> r == s
    decreases |s|
  {
    if |s| == 0 then ""
    else if s[0] == '<' && |s| > 1 && s[1] != '>' && IndexFrom(s, '>', 2).Some? then
      StripTags(s[IndexFrom(s, '>', 2).value + 1..])
    else
      assert [s[0]] + s[1..] == s;
      [s[0]] + StripTags(s[1..])
  }

  /** The tag pattern needs a closing `>`, so it never matches text without one. */
  lemma {:induction false} StripTagsWithoutGt(s: string)
    requires forall i :: 0 <= i < |s| ==> s[i] != '>'
    ensures StripTags(s) == s
    decreases |s|
  {
    if |s| > 0 {
      assert IndexFrom(s, '>', 2).None?;
      StripTagsWithoutGt(s[1..]);
      assert [s[0]] + s[1..] == s;
    }
  }

  /** A tag at the front, `<` then at least one non-`>` character then `>`, is removed
      whole, and the scan goes on after it. */
  lemma StripTagsRemovesTag(t: string, rest: string)
    requires |t| > 0 && forall i :: 0 <= i < |t| ==> t[i] != '>'
    ensures StripTags("<" + t + ">" + rest) == StripTags(rest)
  {
    var s := "<" + t + ">" + rest;
    assert s[0] == '<' && s[1] == t[0];
    assert s[|t| + 1] == '>';
    assert forall k :: 2 <= k <= |t| ==> s[k] == t[k - 1];
    assert IndexFrom(s, '>', 2) == Some(|t| + 1);
    assert s[|t| + 2..] == rest;
  }

  /** The decimal digit of `d`. */
  function Digit(d: nat): char
    requires d < 10
  {
    "0123456789"[d]
  }

  /** `n.toString()` for a natural number. */
  function Decimal(n: nat): (r: string)
    ensures |r| > 0
    ensures forall i :: 0 <= i < |r| ==> '0' <= r[i] <= '9'
    ensures r[0] == '0' <==> n == 0
    ensures |r| > 1 ==> r[0] != '0'
    decreases n
  {
    if n < 10 then [Digit(n)] else Decimal(n / 10) + [Digit(n % 10)]
  }

  /** Reference definition: the number a string of decimal digits denotes. */
  function DigitsValue(s: string): nat
    requires forall i :: 0 <= i < |s| ==> '0' <= s[i] <= '9'
    decreases |s|
  {
    if |s| == 0 then 0
    else 10 * DigitsValue(s[..|s| - 1]) + (s[|s| - 1] as int - '0' as int)
  }

  /** Reading back the decimal rendering of `n` gives `n`. */
  lemma {:induction false} DecimalRoundTrip(n: nat)
    ensures DigitsValue(Decimal(n)) == n
    decreases n
  {
    var r := Decimal(n);
    if n < 10 {
      assert r[..0] == "";
    } else {
      DecimalRoundTrip(n / 10);
      assert r[..|r| - 1] == Decimal(n / 10);
    }
  }
}

=== FILE: wrappers.dfy ===
/** Option and Result datatypes shared by every module of the model. */
module Wrappers {

  /** A value that may be absent (JS `undefined`/`null` where the source returns one). */
  datatype Option<+T> = None | Some(value: T)

  /** The outcome of an operation that can throw in the source: `Failure` carries
      the kind of exception the JavaScript would raise. */
  datatype Result<+T> = Ok(value: T) | Failure(error: string)
}
